=== FILE: README.md ===
# kubetui navigation, modelled in Dafny

kubetui is a terminal front end to `kubectl`. It opens on a main menu of four
entries: "Choose Context", "Choose Namespace", "Pods" and "Copy Pod". Each
entry leads to a picker over a list that kubectl supplies: contexts,
namespaces, or the pods of the namespace in use. From the pickers the user
switches context, chooses the namespace, `exec`s into a pod, or makes a
debug copy of a pod under a name typed into a prompt. Errors go to a Message
screen and command output to a ShowOutput screen. On either screen any key
goes back to the menu, and 'q' quits from every screen.

This project models:
- The session object of `src/app.rs`, with its state and the operations that
  run kubectl and update the session.
- The key handling of `src/ui.rs`, with one handler per screen, the
  main-menu preview, and the event loop.

## Layout

- `wrappers.dfy`, module `Wrappers`: `Option` with `UnwrapOr`. It stands for
  the `ListState` cursors and the optional selections.
- `text.dfy`, module `Text`: the Rust string operations the session relies
  on, each with its contract:
  - `trim_matches('\'')` (as `TrimQuotes`) and `trim` over the Unicode
    White_Space set;
  - `split_whitespace`;
  - `lines`.
  It also proves their round trips (join then split, unlines then lines) and
  how trimming acts on a string wrapped in trimmed characters.
- `kubectl.dfy`, module `Kubectl`:
  - each kubectl invocation the program makes, as a `Request`;
  - what comes back, as a `Launch`: the process could not be started, or it
    exited with a status, stdout and stderr.
- `app.dfy`, module `Application`:
  - `AppState`;
  - the value `Session`, which holds every field of the session object plus
    a log `calls` of the kubectl requests made so far;
  - one function per `App` method, returning an `Effect` (new session and
    `Ok`/`Err` result);
  - the invariant `Session.Valid`;
  - `class App`, whose fields mirror the Rust struct and whose methods update
    them in place. Each method is proved to equal its `Session` function on
    the ghost view `App.Snapshot()`. Small setters (`SetState`,
    `ShowMessage`, the `Select...Row` methods standing for
    `ListState::select`, and so on) carry most of the field assignments the
    handlers make, each with the exact new view as its contract; the preview
    and the namespace choice assign their fields directly.
- `ui.dfy`, module `Ui`:
  - a pure `...Next` function per handler, `Step` (one turn of the event
    loop) and `Run` (a finite sequence of turns);
  - the handlers as methods on an `App`, each proved to do what its function
    says.
  - `RunApp` is the loop itself. Its loop invariant ties each iteration to
    `Run`.
- `app_properties.dfy` and `ui_properties.dfy`: the properties of the two
  source files, stated on the functions above.

kubectl is a parameter `kubectl: Request -> Launch`. It gives the reply to
each request during one key press, and every operation appends its request to
`calls`. The contracts can therefore say which requests a key press makes, in
which namespace, and that some key presses make none.

## Model

| member | source | states |
|---|---|---|
| Text.TrimStartBy | src/app.rs:117-119 | the result is a suffix of the input; everything dropped matches the pattern; the result does not start with a match |
| Text.TrimEndBy | src/app.rs:117-119 | the result is a prefix of the input; everything dropped matches; the result does not end with a match |
| Text.TrimBy | src/app.rs:117-119 | the result is a contiguous infix whose surroundings all match the pattern and whose ends do not |
| Text.TrimByAllIsEmpty | src/app.rs:94-99 | trimming leaves nothing exactly when every character matches; `trim().is_empty()` means "only whitespace" |
| Text.TrimByWrapped | src/app.rs:117-119 | trimming `x + t + y` yields `t` when `x` and `y` consist only of matches and `t` neither starts nor ends with one |
| Text.Trim | src/app.rs:95 | `str::trim`: `TrimBy` over the Unicode White_Space set, so the laws proved of `TrimBy` apply (`CurrentContextIsTrimmed`) |
| Text.TrimQuotes | src/app.rs:119 | `trim_matches('\'')`: `TrimBy` over the quote; `TrimByWrapped` shows it removes the quotes around a jsonpath listing and nothing else |
| Text.WordLength | src/app.rs:120-123 | the first word runs up to the first separator, which is not part of it |
| Text.SplitBy | src/app.rs:120-123 | `split_whitespace` yields only non-empty words free of separators |
| Text.SplitWhitespace | src/app.rs:122 | `split_whitespace`: `SplitBy` over White_Space; its words are exactly the maximal whitespace-free runs (`SplitKeepsText`, `SplitSpaced`) |
| Text.SplitKeepsText | src/app.rs:120-123 | concatenating the words gives the input with every separator removed, so no text is lost or invented |
| Text.SplitJoin | src/app.rs:120-123 | splitting the join of proper words by a separator gives back exactly those words |
| Text.SplitSpaced | src/app.rs:120-123 | words laid out with non-empty separator runs between them and possibly empty runs at both ends split back to exactly those words, so words break at every run and only there |
| Text.Lines | src/app.rs:139-142 | no line contains a newline |
| Text.LinesOfUnlines | src/app.rs:139-142 | lines written one per row (each ended by "\n") read back as the same lines |
| Text.UnlinesOfLines | src/app.rs:139-142 | writing the lines back out reproduces the text without carriage returns, plus a final newline if it lacked one |
| Application.ParseNames | src/app.rs:117-125 | a parsed jsonpath listing is a list of names: non-empty, no whitespace |
| Application.CurrentContextOf | src/app.rs:88-104 | the start-up context is None exactly when kubectl could not start, failed, or printed only whitespace; otherwise it is the trimmed output, non-empty |
| Application.Session.New | src/app.rs:47-86 | the start-up session of `App::new`: main menu, cursor 0, empty lists, nothing chosen, "default", the current-context request only (`NewSessionIsValid`) |
| Application.Session.Valid | src/app.rs:16-44 | the invariant on the session's fields that every turn of the loop keeps, including that each non-empty list has its cursor set on an item (`StepKeepsValid`, `ReachableSessionsValid`) |
| Application.Session.CurrentNamespace | src/app.rs:106-110 | the chosen namespace, else the default one (`CurrentNamespaceFallback`) |
| Application.Session.LoadNamespaces | src/app.rs:112-131 | one `get namespaces` request; the parsed listing with cursor 0 on success, the launch error or the failure text otherwise (`LoadNamespacesEffect`) |
| Application.Session.LoadContexts | src/app.rs:133-148 | one `config get-contexts` request; the output's lines with cursor 0 on success, the launch error or "Failed to load contexts" otherwise (`LoadContextsEffect`) |
| Application.Session.LoadPods | src/app.rs:150-170 | one `get pods` request in the namespace in use; parsed names with cursor 0 on success, the launch error or the failure text otherwise (`LoadPodsEffect`) |
| Application.Session.SwitchContext | src/app.rs:172-183 | one `use-context` request; the context is recorded only on success (`SwitchContextEffect`) |
| Application.Session.ExecuteKubectl | src/app.rs:185-196 | one request; once launched its stdout or stderr becomes the output (`ExecuteKubectlEffect`) |
| Application.Session.CopyPod | src/app.rs:198-222 | one debug-copy request in the namespace in use; ShowOutput with stdout or stderr once launched (`LaunchedPodCommandsShowOutput`) |
| Application.Session.ExecPod | src/app.rs:224-237 | one exec request in the namespace in use; ShowOutput with stdout or stderr once launched (`LaunchedPodCommandsShowOutput`) |
| Application.App.constructor | src/app.rs:47-86 | the new session object has the initial values of `App::new` and equals `Session.New` |
| Application.App.CurrentNamespace | src/app.rs:106-110 | the object's namespace in use is that of its session view |
| Application.App.LoadNamespaces | src/app.rs:112-131 | updates the object exactly as `Session.LoadNamespaces` and returns its result |
| Application.App.LoadContexts | src/app.rs:133-148 | updates the object exactly as `Session.LoadContexts` and returns its result |
| Application.App.LoadPods | src/app.rs:150-170 | updates the object exactly as `Session.LoadPods` and returns its result |
| Application.App.SwitchContext | src/app.rs:172-183 | updates the object exactly as `Session.SwitchContext` and returns its result |
| Application.App.ExecuteKubectl | src/app.rs:185-196 | updates the object exactly as `Session.ExecuteKubectl` and returns its result |
| Application.App.CopyPod | src/app.rs:198-222 | updates the object exactly as `Session.CopyPod` and returns its result |
| Application.App.ExecPod | src/app.rs:224-237 | updates the object exactly as `Session.ExecPod` and returns its result |
| AppProperties.NewSessionIsValid | src/app.rs:47-86 | the start-up session is valid, on the main menu with cursor 0, with nothing selected, "default" as namespace in use, and only the current-context request made |
| AppProperties.CurrentNamespaceFallback | src/app.rs:106-110 | the namespace in use is the chosen one, else "default", and in a valid session it is a proper name |
| AppProperties.ParseNamesOfListing | src/app.rs:112-125 | a jsonpath listing (names joined by spaces, wrapped in quotes) parses back to exactly those names |
| AppProperties.JoinWithEnds | src/app.rs:117-119 | a join of quote-free names is non-empty and neither starts nor ends with a quote, so trimming quotes leaves it whole |
| AppProperties.LoadNamespacesEffect | src/app.rs:112-131 | Ok exactly when kubectl succeeded; then the list is the parsed listing of names and the cursor is 0; on error only the call log changes, and the error is the launch error or "Failed to get namespaces: " plus stderr |
| AppProperties.LoadContextsEffect | src/app.rs:133-148 | Ok exactly when kubectl succeeded; then the list is the output's lines and the cursor is 0; otherwise only the call log changes and a failed run reports "Failed to load contexts" |
| AppProperties.LoadPodsEffect | src/app.rs:150-170 | asks for the pods of the namespace in use; Ok exactly when kubectl succeeded, with parsed names and cursor 0; otherwise only the call log changes |
| AppProperties.SwitchContextEffect | src/app.rs:172-183 | the chosen context is recorded exactly when kubectl succeeded; a failure changes nothing else |
| AppProperties.ExecuteKubectlEffect | src/app.rs:185-196 | fails only when kubectl cannot start; otherwise the output is stdout on success and stderr on failure, and nothing else changes |
| AppProperties.LaunchedPodCommandsShowOutput | src/app.rs:198-237 | exec and copy are Ok exactly when kubectl started, whatever its exit status; then the screen is ShowOutput with stdout or stderr; a launch failure changes nothing but the call log |
| AppProperties.CurrentContextIsTrimmed | src/app.rs:94-99 | a start-up context has no surrounding whitespace and is an infix of kubectl's output |
| Ui.CursorUp | src/ui.rs:198-202 | Up moves one item back and stops at 0 (`UpSaturates`) |
| Ui.CursorDown | src/ui.rs:203-207 | Down lands on the next item, or wraps to 0; never past the list |
| Ui.PreviewNext | src/ui.rs:234-250 | the debounced preview of the entry under the menu cursor (`PreviewDebounced`, `PreviewEffect`, `PreviewIdempotent`) |
| Ui.LoadNamespacesNext | src/ui.rs:252-259 | load namespaces, then the namespace picker or Message with the error (`MainMenuEnterDispatch`, `LoadNamespacesKeepsValid`) |
| Ui.LoadContextsNext | src/ui.rs:261-268 | load contexts, then the context picker or Message with the error (`MainMenuEnterDispatch`, `LoadContextsKeepsValid`) |
| Ui.LoadPodsNext | src/ui.rs:210-228 | load pods, then the given pod picker or Message with the error (`MainMenuEnterDispatch`, `LoadPodsKeepsValid`) |
| Ui.MainMenuNext | src/ui.rs:193-232 | the main menu's keys (`MainMenuMoves`, `MainMenuRightIsEnter`, `MainMenuIgnoresOtherKeys`, `MainMenuEnterDispatch`) |
| Ui.NamespaceSelectionNext | src/ui.rs:362-389 | the namespace picker's keys (`NamespaceChosen`, `PickersEscToMainMenu`, `PickersEnterWithoutItem`) |
| Ui.ContextSelectionNext | src/ui.rs:391-422 | the context picker's keys (`ContextChosen`, `PickersEscToMainMenu`, `PickersEnterWithoutItem`) |
| Ui.ExecPodSelectionNext | src/ui.rs:270-299 | the exec picker's keys (`ExecPodChosen`, `PickersEscToMainMenu`, `PickersEnterWithoutItem`) |
| Ui.CopyPodSelectionNext | src/ui.rs:301-329 | the copy picker's keys (`CopyPodChosen`, `PickersEscToMainMenu`, `PickersEnterWithoutItem`) |
| Ui.CopyPodNameNext | src/ui.rs:331-360 | the name prompt's keys (`TypingAppends`, `BackspaceShortens`, `EmptyNameRejected`, `NameSubmitted`, `NamePromptEsc`) |
| Ui.Dispatch | src/ui.rs:23-33 | the handler of the screen on display; Message and ShowOutput go back to the menu (`AnyKeyDismisses`) |
| Ui.Step | src/ui.rs:18-33 | one turn: 'q' quits before any screen sees it, other keys are dispatched, other events ignored (`QuitAnywhere`, `KeyDispatched`, `NonKeyIgnored`) |
| Ui.Run | src/ui.rs:14-36 | the turns in order, stopping at the first 'q' (`RunSplits`, `RunKeepsValid`) |
| Ui.MaybeLoadPreview | src/ui.rs:234-250 | updates the object exactly as `PreviewNext` |
| Ui.HandleLoadNamespaces | src/ui.rs:252-259 | updates the object exactly as `LoadNamespacesNext` |
| Ui.HandleLoadContexts | src/ui.rs:261-268 | updates the object exactly as `LoadContextsNext` |
| Ui.HandleMainMenu | src/ui.rs:193-232 | updates the object exactly as `MainMenuNext` |
| Ui.HandleNamespaceSelection | src/ui.rs:362-389 | updates the object exactly as `NamespaceSelectionNext` |
| Ui.HandleContextSelection | src/ui.rs:391-422 | updates the object exactly as `ContextSelectionNext` |
| Ui.HandleExecPodSelection | src/ui.rs:270-299 | updates the object exactly as `ExecPodSelectionNext` |
| Ui.HandleCopyPodSelection | src/ui.rs:301-329 | updates the object exactly as `CopyPodSelectionNext` |
| Ui.HandleCopyPodName | src/ui.rs:331-360 | updates the object exactly as `CopyPodNameNext` |
| Ui.HandleEvent | src/ui.rs:18-33 | one turn of the loop on the object is `Step`, including whether it quits |
| Ui.RunApp | src/ui.rs:14-36 | the loop over a sequence of inputs ends where `Run` says, quitting at the first 'q' |
| UiProperties.UpSaturates | src/ui.rs:198-202 | `n` presses of Up move the cursor back `n` places, stopping at 0 |
| UiProperties.DownWraps | src/ui.rs:203-207 | Down from the last item wraps to 0, stays at 0 on an empty list, and otherwise moves one on |
| UiProperties.DownTimesAdd | src/ui.rs:203-207 | `a + b` presses of Down are `a` presses followed by `b` |
| UiProperties.DownCountsUp | src/ui.rs:370-376 | before the end of a list each Down moves exactly one item |
| UiProperties.DownCycles | src/ui.rs:370-376 | pressing Down once per item returns the cursor to where it started |
| UiProperties.PreviewDebounced | src/ui.rs:234-237 | landing again on the last-previewed entry changes nothing and runs no command |
| UiProperties.PreviewEffect | src/ui.rs:238-249 | landing on a new entry records it; only entry 2 queries kubectl, for the pods of the namespace in use; the output is cleared, replaced by the captured text, or by "Error listing pods: " and the error; nothing else changes |
| UiProperties.PreviewIdempotent | src/ui.rs:234-250 | previewing the same entry twice in a row equals previewing it once, so at most one request is made |
| UiProperties.MainMenuMoves | src/ui.rs:198-207 | Up/'k' and Down/'j' set the menu cursor to the moved index and mark it previewed; only cursor, marker, output and call log change |
| UiProperties.MainMenuRightIsEnter | src/ui.rs:208 | Right and Enter act alike on the main menu |
| UiProperties.MainMenuIgnoresOtherKeys | src/ui.rs:230 | every other key leaves the session unchanged on the main menu |
| UiProperties.MainMenuEnterDispatch | src/ui.rs:208-229 | entry 0 opens contexts, 1 namespaces, 2 the exec picker, 3 the copy picker, each only when its kubectl load succeeded, otherwise Message with that entry's error prefix; entries beyond 3 do nothing |
| UiProperties.MainMenuEnterLoads | src/ui.rs:208-229 | Enter on entry 0, 1, 2, 3 runs exactly the context load, the namespace load, the exec-picker pod load and the copy-picker pod load |
| UiProperties.CursorMovesFit | src/ui.rs:366-375 | moving a picker cursor up or down from a place that fits its list leaves it set and on an item (or on 0 for an empty list) |
| UiProperties.PickersEscToMainMenu | src/ui.rs:294-296 | Esc in any picker returns to the main menu and changes nothing else |
| UiProperties.PickersIgnoreRight | src/ui.rs:274-298 | Right does nothing in a picker; only Enter picks |
| UiProperties.PickersEnterWithoutItem | src/ui.rs:377-383 | Enter with the cursor on no item (an empty list) does nothing and runs no command, in all four pickers |
| UiProperties.NamespaceChosen | src/ui.rs:377-383 | choosing a namespace makes it the namespace in use and returns to the main menu, changing nothing else |
| UiProperties.ContextChosen | src/ui.rs:406-416 | choosing a context switches to it; on success it is recorded and the menu shown; on failure the old context stays and Message shows "Error switching context: " and the reason |
| UiProperties.ExecPodChosen | src/ui.rs:285-293 | choosing a pod execs into it in the namespace in use; ShowOutput with the captured text once kubectl started, else Message "Error exec into pod: " |
| UiProperties.CopyPodChosen | src/ui.rs:316-323 | choosing a pod to copy opens the name prompt with an empty buffer and makes no request; only the chosen pod, the buffer and the screen change |
| UiProperties.EmptyNameRejected | src/ui.rs:334-336 | submitting an empty name shows "Please enter a new pod name", makes no request and keeps the chosen pod; only the message and the screen change |
| UiProperties.TypingAppends | src/ui.rs:349-351 | a typed character is appended to the name exactly, and nothing else changes |
| UiProperties.TypingInLoop | src/ui.rs:18-29 | on the name prompt every character but 'q' reaches the prompt and is typed into the name |
| UiProperties.TypingWord | src/ui.rs:14-36 | typing a word without 'q' at the prompt appends exactly that word and stays on the prompt |
| UiProperties.NameSubmitted | src/ui.rs:337-347 | submitting a name copies the chosen pod under it in the namespace in use, then forgets pod and name whether or not the copy started; Message "Error copying pod: " on a launch failure |
| UiProperties.BackspaceUndoesTyping | src/ui.rs:349-354 | typing a character then Backspace restores the session |
| UiProperties.BackspaceShortens | src/ui.rs:352-354 | Backspace drops only the last character, and does nothing on an empty buffer |
| UiProperties.NamePromptEsc | src/ui.rs:355-357 | Esc returns to the pod list, keeping the chosen pod and the typed name |
| UiProperties.QuitAnywhere | src/ui.rs:18-21 | 'q' ends the loop on every screen, session unchanged |
| UiProperties.KeyDispatched | src/ui.rs:18-33 | every key but 'q' goes to the handler of the screen on display and the loop goes on |
| UiProperties.NonKeyIgnored | src/ui.rs:18 | non-key events change nothing and do not quit |
| UiProperties.AnyKeyDismisses | src/ui.rs:30-32 | on Message and ShowOutput every key but 'q' returns to the main menu, changing nothing else |
| UiProperties.NameNeverHasQ | src/ui.rs:18-21 | no turn of the loop puts 'q' into the typed pod name, since the loop takes 'q' before the prompt |
| UiProperties.RunSplits | src/ui.rs:15-35 | running two stretches of input is running the first, then (unless it quit) the second |
| UiProperties.PreviewKeepsValid | src/ui.rs:234-250 | the preview keeps the session invariant |
| UiProperties.LoadNamespacesKeepsValid | src/ui.rs:252-259 | loading namespaces keeps the invariant (every namespace is a name, the cursor fits) |
| UiProperties.LoadContextsKeepsValid | src/ui.rs:261-268 | loading contexts keeps the invariant |
| UiProperties.LoadPodsKeepsValid | src/ui.rs:210-228 | loading pods keeps the invariant (every pod is a name, the cursor fits) |
| UiProperties.MainMenuKeepsValid | src/ui.rs:193-232 | every main-menu key keeps the invariant; the menu cursor stays on one of the four entries |
| UiProperties.MainMenuMoveKeepsValid | src/ui.rs:198-207 | moving the menu cursor keeps the invariant; the cursor and the preview marker stay on one of the four entries |
| UiProperties.MainMenuEnterKeepsValid | src/ui.rs:208-229 | opening an entry keeps the invariant, whichever load runs and whether it succeeds |
| UiProperties.NamespacePickerKeepsValid | src/ui.rs:362-389 | the namespace picker keeps the invariant; a chosen namespace is a name |
| UiProperties.ContextPickerKeepsValid | src/ui.rs:391-422 | the context picker keeps the invariant |
| UiProperties.ContextChosenKeepsValid | src/ui.rs:406-416 | switching to the chosen context keeps the invariant, on success and on failure |
| UiProperties.ExecPickerKeepsValid | src/ui.rs:270-299 | the exec picker keeps the invariant |
| UiProperties.ExecPodChosenKeepsValid | src/ui.rs:285-293 | exec into the chosen pod keeps the invariant, whether or not kubectl started |
| UiProperties.CopyPickerKeepsValid | src/ui.rs:301-329 | the copy picker keeps the invariant; the name prompt is only entered with a chosen pod |
| UiProperties.CopyPodNameKeepsValid | src/ui.rs:331-360 | the name prompt keeps the invariant |
| UiProperties.NameSubmittedKeepsValid | src/ui.rs:337-347 | submitting a name keeps the invariant although the chosen pod is forgotten, since the prompt is left at the same time |
| UiProperties.StepKeepsValid | src/ui.rs:18-33 | every turn of the loop keeps the invariant |
| UiProperties.RunKeepsValid | src/ui.rs:14-36 | every session the loop reaches from a valid one is valid |
| UiProperties.ReachableSessionsValid | src/app.rs:47-86 | every session reachable from start-up is valid, and its namespace in use is a proper name |
| UiProperties.ListNamespacesWalkthrough | src/ui.rs:252-259 | Enter on "Choose Namespace" with kubectl listing names opens the picker on exactly those names, cursor on the first |
| UiProperties.EnterOnNamespacesEntry | src/ui.rs:208-210 | Enter on "Choose Namespace" with a successful listing opens the namespace picker on the parsed listing, cursor on the first |
| UiProperties.ChooseNamespaceWalkthrough | src/ui.rs:362-389 | in the picker over default and kube-system, Down then Enter makes kube-system the namespace in use |
| UiProperties.CopyPodWalkthrough | src/ui.rs:301-360 | choosing worker-1, typing "w2" and Enter issues one debug-copy request and shows the output, with pod and name forgotten |

`Session.Valid` states the invariant that every reachable session keeps:
- the menu has its four entries and its cursor on one of them;
- each list cursor is either unset, 0, or on an item, and is set whenever
  its list is non-empty;
- every namespace and pod listed or chosen is a proper name (non-empty, no
  whitespace);
- the namespace in use falls back to "default";
- the copy-name prompt is only open with a pod chosen.

A consequence of `NameNeverHasQ` is that the copy prompt cannot produce a pod
name containing the letter q. The loop quits on 'q' from every screen, the
prompt included, and the prompt's status line advertises exactly that.

The pickers' status line (src/ui.rs:111-114) offers "[Enter/Right] Select".
The picker handlers, however, act only on Enter. The model follows the
handlers, and `PickersIgnoreRight` states the result.

## Left out

- Drawing the screens (`ui`, the render helpers and the status lines) and
  reading terminal events. An event is an input of `Step`; key-release events
  and the error of `event::read` are not modelled.
- Spawning processes. Each kubectl invocation is a `Request` answered by the
  `kubectl` parameter. The exact argument arrays appear only as comments on
  `Request`. `-it` needs a terminal and may block, but the model only sees
  the process finish.
- Decoding bytes: `String::from_utf8_lossy` is taken as already applied, so
  stdout and stderr are `string`s.
- The `input` field of `App`: it is initialised and never read or written
  again, so it is not part of this model.
- The scroll offset of `ListState`: only its selected index is modelled.
- Text.Lines follows the current `str::lines`: it splits at "\n" and drops
  one "\r" before it. A last piece without "\n" keeps a trailing "\r".
- Text.UnlinesOfLines is proved only for text without carriage returns. With
  "\r\n" endings, writing the lines back gives "\n" endings.
- `main.rs`, terminal setup and teardown are not part of this model.

=== FILE: app.dfy ===
/**
 * The session state of the navigator (src/app.rs): the screen, the three
 * item lists with their cursors, the command menu, the selections, the
 * pod-name buffer, the message and output texts and the preview marker, and
 * the operations that turn a kubectl reply into a state update.
 *
 * `Session` is the state as a value and its member functions say what each
 * operation does to it; `App` is the mutable object the handlers work on,
 * and each of its methods is proved to do exactly what the matching
 * `Session` function says.
 */
module Application {
  import opened Wrappers
  import opened Text
  import opened Kubectl

  datatype AppState =
    | MainMenu
    | NamespaceSelection
    | ContextSelection
    | ExecPodSelection
    | PodSelection
    | CopyPodNameInput
    | Message
    | ShowOutput

  /** `Result<(), Box<dyn Error>>`; an error is kept as the text it displays. */
  datatype Outcome = Ok | Err(error: string)

  /** The main-menu entries, in display order. */
  const Commands: seq<string> := ["Choose Context", "Choose Namespace", "Pods", "Copy Pod"]

  /** The namespace used while none has been chosen. */
  const DefaultNamespace: string := "default"

  /** A namespace or pod name as listed by kubectl: non-empty, without whitespace. */
  predicate IsName(w: string) {
    w != [] && NoneOf(w, IsWhitespace)
  }

  predicate AllNames(names: seq<string>) {
    forall i :: 0 <= i < |names| ==> IsName(names[i])
  }

  /**
   * The names in a jsonpath listing: quote characters stripped from both
   * ends, then split at whitespace.
   */
  function ParseNames(stdout: string): (names: seq<string>)
    ensures AllNames(names)
  {
    SplitWhitespace(TrimQuotes(stdout))
  }

  /**
   * The context kubectl reports as current: its output trimmed, and only
   * when the command succeeded and printed something besides whitespace.
   */
  function CurrentContextOf(reply: Launch): (context: Option<string>)
    ensures context.None? <==> reply.LaunchFailed? || !reply.success || All(reply.stdout, IsWhitespace)
    ensures context.Some? ==> context.value == Trim(reply.stdout) && context.value != []
  {
    if reply.Exited? && reply.success then
      var ctx := Trim(reply.stdout);
      TrimByAllIsEmpty(reply.stdout, IsWhitespace);
      if ctx != [] then Some(ctx) else None
    else
      None
  }

  /** A list cursor that is on an item, or on 0 or absent for an empty list; a non-empty list always has its cursor set. */
  predicate CursorFits(cursor: Option<nat>, length: nat) {
    && (length > 0 ==> cursor.Some?)
    && (cursor.None? || cursor.value == 0 || cursor.value < length)
  }

  /** What an operation leaves behind, and what it returns. */
  datatype Effect = Effect(next: Session, result: Outcome)

  /**
   * The fields of `App`, as a value; `calls` records, in order, every
   * kubectl request the session has issued.
   */
  datatype Session = Session(
    state: AppState,
    commands: seq<string>,
    listState: Option<nat>,
    namespaces: seq<string>,
    namespaceListState: Option<nat>,
    contexts: seq<string>,
    contextListState: Option<nat>,
    pods: seq<string>,
    podListState: Option<nat>,
    selectedNamespace: Option<string>,
    selectedContext: Option<string>,
    selectedPod: Option<string>,
    defaultNamespace: string,
    newPodName: string,
    message: string,
    output: string,
    lastMainMenuIndex: Option<nat>,
    calls: seq<Request>)
  {
    /** `App::new`, given kubectl's answer to the current-context query. */
    static function New(kubectl: Request -> Launch): Session {
      Session(MainMenu, Commands, Some(0), [], None, [], None, [], None,
              None, CurrentContextOf(kubectl(CurrentContext)), None,
              DefaultNamespace, "", "", "", None, [CurrentContext])
    }

    /** The invariant every reachable session keeps. */
    predicate Valid() {
      && commands == Commands
      && listState.Some? && listState.value < |commands|
      && (lastMainMenuIndex.Some? ==> lastMainMenuIndex.value < |commands|)
      && defaultNamespace == DefaultNamespace
      && CursorFits(namespaceListState, |namespaces|)
      && CursorFits(contextListState, |contexts|)
      && CursorFits(podListState, |pods|)
      && AllNames(namespaces) && AllNames(pods)
      && (selectedNamespace.Some? ==> IsName(selectedNamespace.value))
      && (selectedPod.Some? ==> IsName(selectedPod.value))
      && (state == CopyPodNameInput ==> selectedPod.Some?)
    }

    function CurrentNamespace(): string {
      selectedNamespace.UnwrapOr(defaultNamespace)
    }

    function LoadNamespaces(kubectl: Request -> Launch): Effect {
      var s := this.(calls := calls + [GetNamespaces]);
      match kubectl(GetNamespaces)
      case LaunchFailed(e) => Effect(s, Err(e))
      case Exited(success, stdout, stderr) =>
        if success then
          Effect(s.(namespaces := ParseNames(stdout), namespaceListState := Some(0)), Ok)
        else
          Effect(s, Err("Failed to get namespaces: " + stderr))
    }

    function LoadContexts(kubectl: Request -> Launch): Effect {
      var s := this.(calls := calls + [GetContexts]);
      match kubectl(GetContexts)
      case LaunchFailed(e) => Effect(s, Err(e))
      case Exited(success, stdout, _) =>
        if success then
          Effect(s.(contexts := Lines(stdout), contextListState := Some(0)), Ok)
        else
          Effect(s, Err("Failed to load contexts"))
    }

    function LoadPods(kubectl: Request -> Launch): Effect {
      var request := GetPods(CurrentNamespace());
      var s := this.(calls := calls + [request]);
      match kubectl(request)
      case LaunchFailed(e) => Effect(s, Err(e))
      case Exited(success, stdout, stderr) =>
        if success then
          Effect(s.(pods := ParseNames(stdout), podListState := Some(0)), Ok)
        else
          Effect(s, Err("Failed to get pods: " + stderr))
    }

    function SwitchContext(context: string, kubectl: Request -> Launch): Effect {
      var s := this.(calls := calls + [UseContext(context)]);
      match kubectl(UseContext(context))
      case LaunchFailed(e) => Effect(s, Err(e))
      case Exited(success, _, _) =>
        if success then Effect(s.(selectedContext := Some(context)), Ok)
        else Effect(s, Err("Failed to switch context"))
    }

    function ExecuteKubectl(request: Request, kubectl: Request -> Launch): Effect {
      var s := this.(calls := calls + [request]);
      var reply := kubectl(request);
      match reply
      case LaunchFailed(e) => Effect(s, Err(e))
      case Exited(_, _, _) => Effect(s.(output := Captured(reply)), Ok)
    }

    function CopyPod(originalPod: string, newPodName: string, kubectl: Request -> Launch): Effect {
      var request := DebugCopy(CurrentNamespace(), originalPod, newPodName);
      var s := this.(calls := calls + [request]);
      var reply := kubectl(request);
      match reply
      case LaunchFailed(e) => Effect(s, Err(e))
      case Exited(_, _, _) => Effect(s.(output := Captured(reply), state := ShowOutput), Ok)
    }

    function ExecPod(pod: string, kubectl: Request -> Launch): Effect {
      var request := Exec(CurrentNamespace(), pod);
      var s := this.(calls := calls + [request]);
      var reply := kubectl(request);
      match reply
      case LaunchFailed(e) => Effect(s, Err(e))
      case Exited(_, _, _) => Effect(s.(output := Captured(reply), state := ShowOutput), Ok)
    }
  }

  /** The session object the key handlers mutate. */
  class App {
    var state: AppState
    var commands: seq<string>
    var listState: Option<nat>
    var namespaces: seq<string>
    var namespaceListState: Option<nat>
    var contexts: seq<string>
    var contextListState: Option<nat>
    var pods: seq<string>
    var podListState: Option<nat>
    var selectedNamespace: Option<string>
    var selectedContext: Option<string>
    var selectedPod: Option<string>
    var defaultNamespace: string
    var newPodName: string
    var message: string
    var output: string
    var lastMainMenuIndex: Option<nat>
    ghost var calls: seq<Request>

    ghost function Snapshot(): Session
      reads this
    {
      Session(state, commands, listState, namespaces, namespaceListState,
              contexts, contextListState, pods, podListState,
              selectedNamespace, selectedContext, selectedPod, defaultNamespace,
              newPodName, message, output, lastMainMenuIndex, calls)
    }

    constructor (kubectl: Request -> Launch)
      ensures Snapshot() == Session.New(kubectl)
      ensures state == MainMenu && commands == Commands && listState == Some(0)
      ensures lastMainMenuIndex == None && selectedNamespace == None && selectedPod == None
      ensures namespaces == [] && contexts == [] && pods == []
      ensures newPodName == "" && message == "" && output == ""
      ensures defaultNamespace == "default"
    {
      var defaultContext := CurrentContextOf(kubectl(CurrentContext));
      state := MainMenu;
      commands := Commands;
      listState := Some(0);
      namespaces, namespaceListState := [], None;
      contexts, contextListState := [], None;
      pods, podListState := [], None;
      selectedNamespace, selectedContext, selectedPod := None, defaultContext, None;
      defaultNamespace := DefaultNamespace;
      newPodName, message, output := "", "", "";
      lastMainMenuIndex := None;
      calls := [CurrentContext];
    }

    function CurrentNamespace(): (namespace: string)
      reads this
      ensures namespace == Snapshot().CurrentNamespace()
    {
      if selectedNamespace.Some? then selectedNamespace.value else defaultNamespace
    }

    method LoadNamespaces(kubectl: Request -> Launch) returns (r: Outcome)
      modifies this
      ensures old(Snapshot()).LoadNamespaces(kubectl) == Effect(Snapshot(), r)
    {
      var reply := kubectl(GetNamespaces);
      Record(GetNamespaces);
      match reply {
        case LaunchFailed(e) =>
          r := Err(e);
        case Exited(success, stdout, stderr) =>
          if success {
            ShowNamespaces(ParseNames(stdout));
            r := Ok;
          } else {
            r := Err("Failed to get namespaces: " + stderr);
          }
      }
    }

    /** Appends `request` to the log of kubectl invocations. */
    method Record(request: Request)
      modifies this
      ensures Snapshot() == old(Snapshot()).(calls := old(calls) + [request])
    {
      calls := calls + [request];
    }

    /** Replaces the namespace list and points its cursor at the first entry. */
    method ShowNamespaces(names: seq<string>)
      modifies this
      ensures Snapshot() == old(Snapshot()).(namespaces := names, namespaceListState := Some(0))
    {
      namespaces := names;
      namespaceListState := Some(0);
    }

    /** `list_state.select(Some(i))`: moves the main-menu cursor. */
    method SelectCommandRow(i: nat)
      modifies this
      ensures Snapshot() == old(Snapshot()).(listState := Some(i))
    {
      listState := Some(i);
    }

    /** `namespace_list_state.select(Some(i))`. */
    method SelectNamespaceRow(i: nat)
      modifies this
      ensures Snapshot() == old(Snapshot()).(namespaceListState := Some(i))
    {
      namespaceListState := Some(i);
    }

    /** `context_list_state.select(Some(i))`. */
    method SelectContextRow(i: nat)
      modifies this
      ensures Snapshot() == old(Snapshot()).(contextListState := Some(i))
    {
      contextListState := Some(i);
    }

    /** `pod_list_state.select(Some(i))`. */
    method SelectPodRow(i: nat)
      modifies this
      ensures Snapshot() == old(Snapshot()).(podListState := Some(i))
    {
      podListState := Some(i);
    }

    /** Sets the pod chosen for copying. */
    method SetSelectedPod(pod: Option<string>)
      modifies this
      ensures Snapshot() == old(Snapshot()).(selectedPod := pod)
    {
      selectedPod := pod;
    }

    /** Sets the text typed at the pod-name prompt. */
    method SetNewPodName(name: string)
      modifies this
      ensures Snapshot() == old(Snapshot()).(newPodName := name)
    {
      newPodName := name;
    }

    /** Switches to screen `next`. */
    method SetState(next: AppState)
      modifies this
      ensures Snapshot() == old(Snapshot()).(state := next)
    {
      state := next;
    }

    /** Shows `text` on the message screen. */
    method ShowMessage(text: string)
      modifies this
      ensures Snapshot() == old(Snapshot()).(message := text, state := Message)
    {
      message := text;
      state := Message;
    }

    /** Replaces the context list and points its cursor at the first entry. */
    method ShowContexts(names: seq<string>)
      modifies this
      ensures Snapshot() == old(Snapshot()).(contexts := names, contextListState := Some(0))
    {
      contexts := names;
      contextListState := Some(0);
    }

    /** Replaces the pod list and points its cursor at the first entry. */
    method ShowPods(names: seq<string>)
      modifies this
      ensures Snapshot() == old(Snapshot()).(pods := names, podListState := Some(0))
    {
      pods := names;
      podListState := Some(0);
    }

    method LoadContexts(kubectl: Request -> Launch) returns (r: Outcome)
      modifies this
      ensures old(Snapshot()).LoadContexts(kubectl) == Effect(Snapshot(), r)
    {
      var reply := kubectl(GetContexts);
      Record(GetContexts);
      match reply {
        case LaunchFailed(e) =>
          r := Err(e);
        case Exited(success, stdout, _) =>
          if success {
            ShowContexts(Lines(stdout));
            r := Ok;
          } else {
            r := Err("Failed to load contexts");
          }
      }
    }

    method LoadPods(kubectl: Request -> Launch) returns (r: Outcome)
      modifies this
      ensures old(Snapshot()).LoadPods(kubectl) == Effect(Snapshot(), r)
    {
      var namespace := CurrentNamespace();
      var reply := kubectl(GetPods(namespace));
      Record(GetPods(namespace));
      match reply {
        case LaunchFailed(e) =>
          r := Err(e);
        case Exited(success, stdout, stderr) =>
          if success {
            ShowPods(ParseNames(stdout));
            r := Ok;
          } else {
            r := Err("Failed to get pods: " + stderr);
          }
      }
    }

    method SwitchContext(context: string, kubectl: Request -> Launch) returns (r: Outcome)
      modifies this
      ensures old(Snapshot()).SwitchContext(context, kubectl) == Effect(Snapshot(), r)
    {
      var status := kubectl(UseContext(context));
      Record(UseContext(context));
      match status {
        case LaunchFailed(e) =>
          r := Err(e);
        case Exited(success, _, _) =>
          if success {
            selectedContext := Some(context);
            r := Ok;
          } else {
            r := Err("Failed to switch context");
          }
      }
    }

    method ExecuteKubectl(request: Request, kubectl: Request -> Launch) returns (r: Outcome)
      modifies this
      ensures old(Snapshot()).ExecuteKubectl(request, kubectl) == Effect(Snapshot(), r)
    {
      var reply := kubectl(request);
      Record(request);
      match reply {
        case LaunchFailed(e) =>
          r := Err(e);
        case Exited(success, stdout, stderr) =>
          output := if success then stdout else stderr;
          r := Ok;
      }
    }

    method CopyPod(originalPod: string, newPodName: string, kubectl: Request -> Launch) returns (r: Outcome)
      modifies this
      ensures old(Snapshot()).CopyPod(originalPod, newPodName, kubectl) == Effect(Snapshot(), r)
    {
      var namespace := CurrentNamespace();
      var reply := kubectl(DebugCopy(namespace, originalPod, newPodName));
      Record(DebugCopy(namespace, originalPod, newPodName));
      match reply {
        case LaunchFailed(e) =>
          r := Err(e);
        case Exited(success, stdout, stderr) =>
          if success {
            output := stdout;
          } else {
            output := stderr;
          }
          state := ShowOutput;
          r := Ok;
      }
    }

    method ExecPod(pod: string, kubectl: Request -> Launch) returns (r: Outcome)
      modifies this
      ensures old(Snapshot()).ExecPod(pod, kubectl) == Effect(Snapshot(), r)
    {
      var namespace := CurrentNamespace();
      var reply := kubectl(Exec(namespace, pod));
      Record(Exec(namespace, pod));
      match reply {
        case LaunchFailed(e) =>
          r := Err(e);
        case Exited(success, stdout, stderr) =>
          if success {
            output := stdout;
          } else {
            output := stderr;
          }
          state := ShowOutput;
          r := Ok;
      }
    }
  }
}

=== FILE: app_properties.dfy ===
/** Properties of the session operations of src/app.rs. */
module AppProperties {
  import opened Wrappers
  import opened Text
  import opened Kubectl
  import opened Application

  /** The fallback namespace "default" is a proper name. */
  lemma DefaultNamespaceIsName()
    ensures IsName(DefaultNamespace)
  {
    assert forall i :: 0 <= i < |DefaultNamespace| ==> !IsWhitespace(DefaultNamespace[i]);
  }

  /** The starting session keeps the invariant and has the documented initial values. */
  lemma NewSessionIsValid(kubectl: Request -> Launch)
    ensures Session.New(kubectl).Valid()
    ensures var s := Session.New(kubectl);
            && s.state == MainMenu && s.listState == Some(0) && s.lastMainMenuIndex == None
            && s.selectedNamespace == None && s.selectedPod == None
            && s.newPodName == "" && s.message == "" && s.output == ""
            && s.CurrentNamespace() == "default"
            && s.calls == [CurrentContext]
  {
    DefaultNamespaceIsName();
  }

  /** The namespace in use is the chosen one, else "default"; in a valid session it is a name. */
  lemma CurrentNamespaceFallback(s: Session)
    requires s.Valid()
    ensures s.selectedNamespace.Some? ==> s.CurrentNamespace() == s.selectedNamespace.value
    ensures s.selectedNamespace.None? ==> s.CurrentNamespace() == "default"
    ensures IsName(s.CurrentNamespace())
  {
    DefaultNamespaceIsName();
  }

  /**
   * A jsonpath listing of names (the names separated by spaces, the whole
   * wrapped in quote characters) parses back to exactly those names.
   */
  lemma {:induction false} ParseNamesOfListing(names: seq<string>)
    requires AllNames(names)
    requires forall i :: 0 <= i < |names| ==> '\'' !in names[i]
    ensures ParseNames("'" + JoinWith(names, ' ') + "'") == names
  {
    var joined := JoinWith(names, ' ');
    JoinWithEnds(names, ' ');
    TrimByWrapped("'", joined, "'", IsQuote);
    SplitJoin(names, ' ', IsWhitespace);
  }

  /** The first and last characters of a join are those of the first and last word. */
  lemma {:induction false} JoinWithEnds(names: seq<string>, sep: char)
    requires AllNames(names)
    requires forall i :: 0 <= i < |names| ==> '\'' !in names[i]
    ensures var j := JoinWith(names, sep);
            (names != [] ==> j != []) && (j == [] || (j[0] != '\'' && j[|j| - 1] != '\''))
    decreases |names|
  {
    if |names| > 1 {
      var rest := JoinWith(names[1..], sep);
      JoinWithEnds(names[1..], sep);
      var j := names[0] + [sep] + rest;
      assert names[0][0] in names[0];
      assert j[0] == names[0][0];
      assert j[|j| - 1] == rest[|rest| - 1];
    } else if |names| == 1 {
      assert names[0][0] in names[0];
      assert names[0][|names[0]| - 1] in names[0];
    }
  }

  /** Loading namespaces: Ok exactly when kubectl succeeded; then the list is the parsed listing and the cursor is on 0; otherwise the list and cursor are kept. */
  lemma LoadNamespacesEffect(s: Session, kubectl: Request -> Launch)
    ensures var reply := kubectl(GetNamespaces);
            var e := s.LoadNamespaces(kubectl);
            && e.next.calls == s.calls + [GetNamespaces]
            && (e.result.Ok? <==> Succeeded(reply))
            && (e.result.Ok? ==> e.next.namespaces == ParseNames(reply.stdout) && e.next.namespaceListState == Some(0)
                                 && AllNames(e.next.namespaces)
                                 && e.next == s.(namespaces := e.next.namespaces, namespaceListState := Some(0),
                                                 calls := e.next.calls))
            && (e.result.Err? ==> e.next == s.(calls := e.next.calls))
            && (reply.LaunchFailed? ==> e.result == Err(reply.error))
            && (Launched(reply) && !reply.success ==> e.result == Err("Failed to get namespaces: " + reply.stderr))
  {
  }

  /** Loading contexts: Ok exactly when kubectl succeeded; then the list is the output's lines and the cursor is on 0, even when there are none. */
  lemma LoadContextsEffect(s: Session, kubectl: Request -> Launch)
    ensures var reply := kubectl(GetContexts);
            var e := s.LoadContexts(kubectl);
            && e.next.calls == s.calls + [GetContexts]
            && (e.result.Ok? <==> Succeeded(reply))
            && (e.result.Ok? ==> e.next.contexts == Lines(reply.stdout) && e.next.contextListState == Some(0)
                                 && e.next == s.(contexts := e.next.contexts, contextListState := Some(0),
                                                 calls := e.next.calls))
            && (e.result.Err? ==> e.next == s.(calls := e.next.calls))
            && (reply.LaunchFailed? ==> e.result == Err(reply.error))
            && (Launched(reply) && !reply.success ==> e.result == Err("Failed to load contexts"))
  {
  }

  /** Loading pods asks for the pods of the namespace in use; otherwise as for namespaces. */
  lemma LoadPodsEffect(s: Session, kubectl: Request -> Launch)
    ensures var request := GetPods(s.CurrentNamespace());
            var reply := kubectl(request);
            var e := s.LoadPods(kubectl);
            && e.next.calls == s.calls + [request]
            && (e.result.Ok? <==> Succeeded(reply))
            && (e.result.Ok? ==> e.next.pods == ParseNames(reply.stdout) && e.next.podListState == Some(0)
                                 && AllNames(e.next.pods)
                                 && e.next == s.(pods := e.next.pods, podListState := Some(0), calls := e.next.calls))
            && (e.result.Err? ==> e.next == s.(calls := e.next.calls))
            && (reply.LaunchFailed? ==> e.result == Err(reply.error))
            && (Launched(reply) && !reply.success ==> e.result == Err("Failed to get pods: " + reply.stderr))
  {
  }

  /** Switching context records the context only when kubectl succeeded; a failure changes nothing but the call log. */
  lemma SwitchContextEffect(s: Session, context: string, kubectl: Request -> Launch)
    ensures var reply := kubectl(UseContext(context));
            var e := s.SwitchContext(context, kubectl);
            && e.next.calls == s.calls + [UseContext(context)]
            && (e.result.Ok? <==> Succeeded(reply))
            && (e.result.Ok? ==> e.next == s.(selectedContext := Some(context), calls := e.next.calls))
            && (e.result.Err? ==> e.next == s.(calls := e.next.calls))
            && (reply.LaunchFailed? ==> e.result == Err(reply.error))
            && (Launched(reply) && !reply.success ==> e.result == Err("Failed to switch context"))
  {
  }

  /** Running a command fails only when it cannot be started; otherwise its stdout or stderr becomes the output. */
  lemma ExecuteKubectlEffect(s: Session, request: Request, kubectl: Request -> Launch)
    ensures var reply := kubectl(request);
            var e := s.ExecuteKubectl(request, kubectl);
            && (e.result.Ok? <==> Launched(reply))
            && (e.result.Ok? ==> e.next == s.(output := Captured(reply), calls := s.calls + [request]))
            && (e.result.Err? ==> e.next == s.(calls := s.calls + [request]) && e.result.error == reply.error)
  {
  }

  /**
   * Exec and copy: once kubectl has started, the screen is ShowOutput with
   * stdout (on success) or stderr (otherwise) and the result is Ok, whatever
   * the exit status; only a launch failure is an error, and it changes nothing.
   */
  lemma LaunchedPodCommandsShowOutput(s: Session, pod: string, newPod: string, kubectl: Request -> Launch)
    ensures var reply := kubectl(Exec(s.CurrentNamespace(), pod));
            var e := s.ExecPod(pod, kubectl);
            && (e.result.Ok? <==> Launched(reply))
            && (e.result.Ok? ==> e.next.state == ShowOutput
                                 && e.next.output == (if reply.success then reply.stdout else reply.stderr)
                                 && e.next == s.(state := ShowOutput, output := e.next.output, calls := e.next.calls))
            && (e.result.Err? ==> e.next == s.(calls := e.next.calls) && e.result.error == reply.error)
    ensures var reply := kubectl(DebugCopy(s.CurrentNamespace(), pod, newPod));
            var e := s.CopyPod(pod, newPod, kubectl);
            && (e.result.Ok? <==> Launched(reply))
            && (e.result.Ok? ==> e.next.state == ShowOutput
                                 && e.next.output == (if reply.success then reply.stdout else reply.stderr)
                                 && e.next == s.(state := ShowOutput, output := e.next.output, calls := e.next.calls))
            && (e.result.Err? ==> e.next == s.(calls := e.next.calls) && e.result.error == reply.error)
  {
  }

  /** The current context found at start-up has no surrounding whitespace and comes from kubectl's output. */
  lemma CurrentContextIsTrimmed(reply: Launch)
    ensures var context := CurrentContextOf(reply);
            context.Some? ==>
              && !IsWhitespace(context.value[0]) && !IsWhitespace(context.value[|context.value| - 1])
              && exists i :: TrimmedAt(reply.stdout, IsWhitespace, i, context.value)
  {
  }
}

=== FILE: kubectl.dfy ===
/**
 * The kubectl command-line tool as the session sees it: a request (which
 * sub-command is run, with which namespace, pod or context) and what came
 * back. Spawning the process and decoding its bytes are not modelled.
 */
module Kubectl {

  datatype Request =
    | CurrentContext                                            // config current-context
    | GetNamespaces                                             // get namespaces -o=jsonpath=...
    | GetContexts                                               // config get-contexts -o=name
    | GetPods(namespace: string)                                // get pods -n <ns> -o=jsonpath=...
    | UseContext(context: string)                               // config use-context <ctx>
    | PreviewPods(namespace: string)                            // get pods -n <ns>
    | Exec(namespace: string, pod: string)                      // exec -it -n <ns> <pod> -- bash
    | DebugCopy(namespace: string, pod: string, newPod: string) // debug -it -n <ns> <pod> --copy-to <new> ...

  /**
   * The reply to one request: the process could not be started (the I/O
   * error's text), or it ran and exited with a success flag and its captured,
   * already decoded, standard output and standard error.
   */
  datatype Launch =
    | LaunchFailed(error: string)
    | Exited(success: bool, stdout: string, stderr: string)

  /** The process started (whatever its exit status). */
  predicate Launched(reply: Launch) { reply.Exited? }

  /** The process started and exited successfully. */
  predicate Succeeded(reply: Launch) { reply.Exited? && reply.success }

  /** The text the session shows for a process that ran: stdout on success, stderr otherwise. */
  function Captured(reply: Launch): string
    requires reply.Exited?
  {
    if reply.success then reply.stdout else reply.stderr
  }
}

=== FILE: text.dfy ===
/**
 * The Rust string operations the session uses to turn kubectl output into
 * lists: `trim_matches`, `trim`, `split_whitespace` and `lines`.
 * Strings are sequences of Unicode scalar values (`char`).
 */
module Text {

  /** `char::is_whitespace`: the characters with the Unicode White_Space property. */
  predicate IsWhitespace(c: char) {
    c == ' ' || ('\t' <= c <= '\r') || c == '\U{85}' || c == '\U{A0}' || c == '\U{1680}'
    || ('\U{2000}' <= c <= '\U{200A}') || c == '\U{2028}' || c == '\U{2029}'
    || c == '\U{202F}' || c == '\U{205F}' || c == '\U{3000}'
  }

  predicate IsNewline(c: char) { c == '\n' }

  predicate IsCarriageReturn(c: char) { c == '\r' }

  /** Every character of `s` satisfies `p`. */
  predicate All(s: string, p: char -> bool) {
    forall i :: 0 <= i < |s| ==> p(s[i])
  }

  /** No character of `s` satisfies `p`. */
  predicate NoneOf(s: string, p: char -> bool) {
    forall i :: 0 <= i < |s| ==> !p(s[i])
  }

  lemma AllSlice(s: string, p: char -> bool, i: nat, j: nat)
    requires All(s, p) && i <= j <= |s|
    ensures All(s[i..j], p)
  {
    forall k | 0 <= k < j - i ensures p(s[i..j][k]) {
      assert s[i..j][k] == s[i + k];
    }
  }

  // ---------------------------------------------------------------------------
  // Trimming

  /** Drops the longest prefix of characters satisfying `p`. */
  function TrimStartBy(s: string, p: char -> bool): (r: string)
    ensures |r| <= |s| && r == s[|s| - |r|..]
    ensures All(s[..|s| - |r|], p)
    ensures r != [] ==> !p(r[0])
    decreases |s|
  {
    if s != [] && p(s[0]) then
      var r := TrimStartBy(s[1..], p);
      assert s[..|s| - |r|] == [s[0]] + s[1..][..|s| - 1 - |r|];
      r
    else
      s
  }

  /** Drops the longest suffix of characters satisfying `p`. */
  function TrimEndBy(s: string, p: char -> bool): (r: string)
    ensures |r| <= |s| && r == s[..|r|]
    ensures All(s[|r|..], p)
    ensures r != [] ==> !p(r[|r| - 1])
    decreases |s|
  {
    if s != [] && p(s[|s| - 1]) then
      var r := TrimEndBy(s[..|s| - 1], p);
      assert s[|r|..] == s[..|s| - 1][|r|..] + [s[|s| - 1]];
      r
    else
      s
  }

  /**
   * Both ends stripped: the result is the unique infix of `s` that is
   * surrounded only by `p`-characters and neither starts nor ends with one.
   */
  function TrimBy(s: string, p: char -> bool): (r: string)
    ensures r == [] || (!p(r[0]) && !p(r[|r| - 1]))
    ensures exists i :: TrimmedAt(s, p, i, r)
  {
    var t := TrimStartBy(s, p);
    var r := TrimEndBy(t, p);
    TrimByBounds(s, p, t, r);
    assert TrimmedAt(s, p, |s| - |t|, r);
    r
  }

  /** `r` is the infix of `s` at `i`, with only `p`-characters before and after it. */
  predicate TrimmedAt(s: string, p: char -> bool, i: int, r: string) {
    0 <= i <= |s| - |r| && r == s[i..i + |r|] && All(s[..i], p) && All(s[i + |r|..], p)
  }

  /** The witness for TrimBy's second postcondition: where the trimmed text starts. */
  lemma TrimByBounds(s: string, p: char -> bool, t: string, r: string)
    requires t == TrimStartBy(s, p) && r == TrimEndBy(t, p)
    ensures TrimmedAt(s, p, |s| - |t|, r)
  {
    var i := |s| - |t|;
    assert All(s[..i], p);
    InfixOfSuffix(s, t, r);
    assert r == s[i..i + |r|];
    TailOfSuffix(s, t, r, p);
    assert All(s[i + |r|..], p);
  }

  lemma InfixOfSuffix(s: string, t: string, r: string)
    requires |t| <= |s| && t == s[|s| - |t|..]
    requires |r| <= |t| && r == t[..|r|]
    ensures r == s[|s| - |t|..|s| - |t| + |r|]
  {
  }

  lemma TailOfSuffix(s: string, t: string, r: string, p: char -> bool)
    requires |t| <= |s| && t == s[|s| - |t|..]
    requires |r| <= |t| && All(t[|r|..], p)
    ensures All(s[|s| - |t| + |r|..], p)
  {
    assert s[|s| - |t| + |r|..] == t[|r|..];
  }

  lemma TrimByAllIsEmpty(s: string, p: char -> bool)
    ensures TrimBy(s, p) == [] <==> All(s, p)
  {
    var r := TrimBy(s, p);
    var i :| TrimmedAt(s, p, i, r);
    if r == [] {
      assert s == s[..i] + s[i..];
      forall k | 0 <= k < |s| ensures p(s[k]) {
        if k < i { assert s[k] == s[..i][k]; } else { assert s[k] == s[i..][k - i]; }
      }
    } else {
      assert r[0] == s[i];
    }
  }

  /** `str::trim`. */
  function Trim(s: string): string {
    TrimBy(s, IsWhitespace)
  }

  /** The quote character, `'\''`. */
  predicate IsQuote(c: char) {
    c == '\''
  }

  /** `str::trim_matches('\'')`. */
  function TrimQuotes(s: string): string {
    TrimBy(s, IsQuote)
  }

  lemma {:induction false} TrimStartOfRun(x: string, t: string, p: char -> bool)
    requires All(x, p)
    ensures TrimStartBy(x + t, p) == TrimStartBy(t, p)
    decreases |x|
  {
    if x != [] {
      assert (x + t)[0] == x[0] && p(x[0]);
      assert (x + t)[1..] == x[1..] + t;
      AllSlice(x, p, 1, |x|);
      TrimStartOfRun(x[1..], t, p);
    } else {
      assert x + t == t;
    }
  }

  lemma {:induction false} TrimEndOfRun(t: string, y: string, p: char -> bool)
    requires All(y, p)
    ensures TrimEndBy(t + y, p) == TrimEndBy(t, p)
    decreases |y|
  {
    if y != [] {
      assert (t + y)[|t + y| - 1] == y[|y| - 1] && p(y[|y| - 1]);
      assert (t + y)[..|t + y| - 1] == t + y[..|y| - 1];
      AllSlice(y, p, 0, |y| - 1);
      TrimEndOfRun(t, y[..|y| - 1], p);
    } else {
      assert t + y == t;
    }
  }

  /** Trimming text wrapped in `p`-characters gives back the text, when its own ends are not `p`. */
  lemma TrimByWrapped(x: string, t: string, y: string, p: char -> bool)
    requires All(x, p) && All(y, p)
    requires t == [] || (!p(t[0]) && !p(t[|t| - 1]))
    ensures TrimBy(x + t + y, p) == t
  {
    assert x + t + y == x + (t + y);
    TrimStartOfRun(x, t + y, p);
    TrimStartOfWord(t, y, p);
    if t != [] {
      TrimEndOfRun(t, y, p);
      assert TrimEndBy(t, p) == t;
    }
  }

  /** Past a leading run, the start-trim stops at a word that does not start with `p`; with no word, it removes everything. */
  lemma TrimStartOfWord(t: string, y: string, p: char -> bool)
    requires All(y, p)
    requires t == [] || !p(t[0])
    ensures TrimStartBy(t + y, p) == if t == [] then [] else t + y
  {
    if t == [] {
      assert t + y == y + [];
      TrimStartOfRun(y, [], p);
    } else {
      assert (t + y)[0] == t[0];
    }
  }

  // ---------------------------------------------------------------------------
  // Splitting into words

  /** Length of the longest prefix of `s` free of `p`-characters. */
  function WordLength(s: string, p: char -> bool): (n: nat)
    ensures n <= |s| && NoneOf(s[..n], p)
    ensures n < |s| ==> p(s[n])
    decreases |s|
  {
    if s == [] || p(s[0]) then 0
    else
      var n := WordLength(s[1..], p);
      assert s[..n + 1] == [s[0]] + s[1..][..n];
      1 + n
  }

  /** `str::split(p)` with the empty pieces filtered out. */
  function SplitBy(s: string, p: char -> bool): (words: seq<string>)
    ensures forall i :: 0 <= i < |words| ==> words[i] != [] && NoneOf(words[i], p)
    decreases |s|
  {
    if s == [] then []
    else if p(s[0]) then SplitBy(s[1..], p)
    else
      var n := WordLength(s, p);
      [s[..n]] + SplitBy(s[n..], p)
  }

  /** `str::split_whitespace`. */
  function SplitWhitespace(s: string): seq<string> {
    SplitBy(s, IsWhitespace)
  }

  /** The words glued together. */
  function Concat(words: seq<string>): string {
    if words == [] then [] else words[0] + Concat(words[1..])
  }

  /** The characters of `s` that do not satisfy `p`, in order. */
  function Remove(s: string, p: char -> bool): string {
    if s == [] then [] else (if p(s[0]) then [] else [s[0]]) + Remove(s[1..], p)
  }

  /** The words separated by single `sep` characters. */
  function JoinWith(words: seq<string>, sep: char): string {
    if words == [] then []
    else if |words| == 1 then words[0]
    else words[0] + [sep] + JoinWith(words[1..], sep)
  }

  lemma {:induction false} RemoveAppend(a: string, b: string, p: char -> bool)
    ensures Remove(a + b, p) == Remove(a, p) + Remove(b, p)
    decreases |a|
  {
    if a != [] {
      assert (a + b)[0] == a[0];
      assert (a + b)[1..] == a[1..] + b;
      RemoveAppend(a[1..], b, p);
    } else {
      assert a + b == b;
    }
  }

  lemma {:induction false} RemoveNone(a: string, p: char -> bool)
    requires NoneOf(a, p)
    ensures Remove(a, p) == a
    decreases |a|
  {
    if a != [] {
      RemoveNone(a[1..], p);
    }
  }

  /** Splitting loses nothing but the separators. */
  lemma {:induction false} SplitKeepsText(s: string, p: char -> bool)
    ensures Concat(SplitBy(s, p)) == Remove(s, p)
    decreases |s|
  {
    if s == [] {
    } else if p(s[0]) {
      SplitKeepsText(s[1..], p);
    } else {
      var n := WordLength(s, p);
      var rest := SplitBy(s[n..], p);
      assert ([s[..n]] + rest)[1..] == rest;
      SplitKeepsText(s[n..], p);
      assert s == s[..n] + s[n..];
      RemoveAppend(s[..n], s[n..], p);
      RemoveNone(s[..n], p);
    }
  }

  lemma {:induction false} WordLengthOfWord(w: string, t: string, p: char -> bool)
    requires NoneOf(w, p)
    requires t == [] || p(t[0])
    ensures WordLength(w + t, p) == |w|
    decreases |w|
  {
    if w != [] {
      assert (w + t)[1..] == w[1..] + t;
      WordLengthOfWord(w[1..], t, p);
    }
  }

  /** Splitting undoes joining, for non-empty words free of separators. */
  lemma {:induction false} SplitJoin(words: seq<string>, sep: char, p: char -> bool)
    requires p(sep)
    requires forall i :: 0 <= i < |words| ==> words[i] != [] && NoneOf(words[i], p)
    ensures SplitBy(JoinWith(words, sep), p) == words
    decreases |words|
  {
    if |words| == 1 {
      var w := words[0];
      WordLengthOfWord(w, [], p);
      assert w + [] == w;
      assert w[|w|..] == [];
    } else if |words| > 1 {
      var w := words[0];
      var rest := JoinWith(words[1..], sep);
      var s := w + [sep] + rest;
      assert s == w + ([sep] + rest);
      WordLengthOfWord(w, [sep] + rest, p);
      assert s[..|w|] == w;
      assert s[|w|..] == [sep] + rest;
      assert ([sep] + rest)[1..] == rest;
      SplitJoin(words[1..], sep, p);
    }
  }

  /**
   * The words laid out with the separator runs `gaps` around them:
   * `gaps[0] + words[0] + gaps[1] + ... + words[n-1] + gaps[n]`.
   */
  function Spaced(gaps: seq<string>, words: seq<string>): string
    requires |gaps| == |words| + 1
    decreases |words|
  {
    if words == [] then gaps[0] else gaps[0] + words[0] + Spaced(gaps[1..], words[1..])
  }

  /** A leading run of separators does not change the words. */
  lemma {:induction false} SplitSkipsRun(x: string, t: string, p: char -> bool)
    requires All(x, p)
    ensures SplitBy(x + t, p) == SplitBy(t, p)
    decreases |x|
  {
    if x != [] {
      assert (x + t)[0] == x[0];
      assert (x + t)[1..] == x[1..] + t;
      AllSlice(x, p, 1, |x|);
      SplitSkipsRun(x[1..], t, p);
    } else {
      assert x + t == t;
    }
  }

  /**
   * Splitting breaks exactly at the separator runs: runs of any length
   * between the words, and possibly empty runs at both ends, give back
   * exactly the words.
   */
  lemma {:induction false} SplitSpaced(gaps: seq<string>, words: seq<string>, p: char -> bool)
    requires |gaps| == |words| + 1
    requires forall i :: 0 <= i < |gaps| ==> All(gaps[i], p)
    requires forall i :: 0 < i < |words| ==> gaps[i] != []
    requires forall i :: 0 <= i < |words| ==> words[i] != [] && NoneOf(words[i], p)
    ensures SplitBy(Spaced(gaps, words), p) == words
    decreases |words|
  {
    if words == [] {
      assert gaps[0] + [] == gaps[0];
      SplitSkipsRun(gaps[0], [], p);
    } else {
      var w := words[0];
      var rest := Spaced(gaps[1..], words[1..]);
      assert gaps[0] + w + rest == gaps[0] + (w + rest);
      SplitSkipsRun(gaps[0], w + rest, p);
      if words[1..] != [] {
        assert gaps[1..][0] == gaps[1] != [];
        assert rest[0] == gaps[1][0];
      }
      WordLengthOfWord(w, rest, p);
      assert (w + rest)[..|w|] == w;
      assert (w + rest)[|w|..] == rest;
      SplitSpaced(gaps[1..], words[1..], p);
    }
  }

  // ---------------------------------------------------------------------------
  // Lines

  /** Removes one trailing carriage return. */
  function StripCarriageReturn(line: string): string {
    if line != [] && line[|line| - 1] == '\r' then line[..|line| - 1] else line
  }

  /**
   * `str::lines`: pieces ending in "\n" or "\r\n" lose that ending; a last
   * piece without "\n" is kept as it is; no empty line follows a final "\n".
   */
  function Lines(s: string): (lines: seq<string>)
    ensures forall i :: 0 <= i < |lines| ==> NoneOf(lines[i], IsNewline)
    decreases |s|
  {
    if s == [] then []
    else
      var n := WordLength(s, IsNewline);
      if n == |s| then [s]
      else
        var line := StripCarriageReturn(s[..n]);
        assert NoneOf(line, IsNewline) by { assert line == s[..n][..|line|]; }
        [line] + Lines(s[n + 1..])
  }

  /** Each line followed by "\n". */
  function Unlines(lines: seq<string>): string {
    if lines == [] then [] else lines[0] + "\n" + Unlines(lines[1..])
  }

  /** Lines undoes Unlines, for lines with no "\n" and no trailing "\r". */
  lemma {:induction false} LinesOfUnlines(lines: seq<string>)
    requires forall i :: 0 <= i < |lines| ==> NoneOf(lines[i], IsNewline)
    requires forall i :: 0 <= i < |lines| ==> StripCarriageReturn(lines[i]) == lines[i]
    ensures Lines(Unlines(lines)) == lines
    decreases |lines|
  {
    if lines != [] {
      var rest := lines[1..];
      assert forall i :: 0 <= i < |rest| ==> rest[i] == lines[i + 1];
      LinesOfUnlines(rest);
      FirstLine(lines[0], Unlines(rest));
      assert lines == [lines[0]] + rest;
    }
  }

  /** A line without "\n" or trailing "\r", then "\n": Lines reads that line first. */
  lemma FirstLine(line: string, rest: string)
    requires NoneOf(line, IsNewline) && StripCarriageReturn(line) == line
    ensures Lines(line + "\n" + rest) == [line] + Lines(rest)
  {
    var s := line + "\n" + rest;
    assert s == line + ("\n" + rest);
    WordLengthOfWord(line, "\n" + rest, IsNewline);
    assert s[..|line|] == line;
    assert s[|line| + 1..] == rest;
  }

  /** Unlines undoes Lines for text without "\r", up to a final "\n". */
  lemma {:induction false} UnlinesOfLines(s: string)
    requires NoneOf(s, IsCarriageReturn)
    ensures Unlines(Lines(s)) == if s == [] || s[|s| - 1] == '\n' then s else s + "\n"
    decreases |s|
  {
    if s != [] {
      var n := WordLength(s, IsNewline);
      if n == |s| {
        LastLine(s);
      } else {
        var t := s[n + 1..];
        LinesStep(s, n);
        NoCarriageReturnSuffix(s, n + 1);
        UnlinesOfLines(t);
        UnlinesCons(s[..n], Lines(t));
        LineBreakJoin(s, n);
      }
    }
  }

  /** Text with no "\n" is a single line, written back with a "\n" added. */
  lemma LastLine(s: string)
    requires s != [] && WordLength(s, IsNewline) == |s|
    ensures Lines(s) == [s]
    ensures s[|s| - 1] != '\n'
    ensures Unlines(Lines(s)) == s + "\n"
  {
    assert s[..|s|] == s;
    assert !IsNewline(s[..|s|][|s| - 1]);
    assert Unlines([s]) == s + "\n" + Unlines([]);
  }

  /** Splitting at the first "\n" at `n`: the text is the line, the "\n" and the rest, and ends like the rest. */
  lemma LineBreakJoin(s: string, n: nat)
    requires n < |s| && s[n] == '\n'
    ensures var t := s[n + 1..];
            && s == s[..n] + "\n" + t
            && s[..n] + "\n" + (if t == [] || t[|t| - 1] == '\n' then t else t + "\n")
               == (if s[|s| - 1] == '\n' then s else s + "\n")
  {
    var t := s[n + 1..];
    assert s == s[..n] + "\n" + t;
    if t != [] {
      assert s[|s| - 1] == t[|t| - 1];
    }
  }

  lemma LinesStep(s: string, n: nat)
    requires NoneOf(s, IsCarriageReturn)
    requires n == WordLength(s, IsNewline) && n < |s|
    ensures Lines(s) == [s[..n]] + Lines(s[n + 1..])
  {
    if n > 0 { assert s[..n][n - 1] == s[n - 1]; }
    assert StripCarriageReturn(s[..n]) == s[..n];
  }

  lemma NoCarriageReturnSuffix(s: string, k: nat)
    requires NoneOf(s, IsCarriageReturn) && k <= |s|
    ensures NoneOf(s[k..], IsCarriageReturn)
  {
    forall j | 0 <= j < |s| - k ensures !IsCarriageReturn(s[k..][j]) { assert s[k..][j] == s[k + j]; }
  }

  lemma UnlinesCons(line: string, rest: seq<string>)
    ensures Unlines([line] + rest) == line + "\n" + Unlines(rest)
  {
    assert ([line] + rest)[1..] == rest;
  }
}

=== FILE: ui.dfy ===
/**
 * The key handling of the navigator (src/ui.rs): one handler per screen,
 * the main-menu preview debouncer, and one turn of the event loop.
 *
 * Each `...Next` function says what a handler does to a `Session`; the
 * `Handle...` methods do it on an `App` object and are proved to agree.
 * A kubectl invocation is a call of the `kubectl` parameter, which stands
 * for whatever the tool replies to each request during that key press.
 */
module Ui {
  import opened Wrappers
  import opened Kubectl
  import opened Application

  /** The key codes the handlers tell apart; `Other` stands for every other key (Left, Tab, Home, F-keys, ...). */
  datatype KeyCode = Up | Down | Right | Enter | Esc | Backspace | Char(c: char) | Other

  /** A terminal event: a key press, or anything else (resize, mouse, focus, paste). */
  datatype Event = Key(code: KeyCode) | NonKey

  /** One turn of the event loop, after the frame is drawn: the event read, and kubectl's replies while it is handled. */
  datatype Input = Input(event: Event, kubectl: Request -> Launch)

  /** Where the event loop is after some input: the session, and whether 'q' ended it. */
  datatype Loop = Loop(final: Session, quit: bool)

  predicate IsUp(code: KeyCode) { code == Up || code == Char('k') }

  predicate IsDown(code: KeyCode) { code == Down || code == Char('j') }

  /** Cursor after Up: `selected.saturating_sub(1)`. */
  function CursorUp(selected: nat): nat {
    if selected == 0 then 0 else selected - 1
  }

  /** Cursor after Down on a list of `length` items: the next index, or 0 from the last one (or beyond it). */
  function CursorDown(selected: nat, length: nat): (next: nat)
    ensures next == 0 || next < length
    ensures next == 0 || next == selected + 1
  {
    var lastIdx := if length == 0 then 0 else length - 1;
    if selected < lastIdx then selected + 1 else 0
  }

  // ---------------------------------------------------------------------------
  // What each handler does to the session

  /** `maybe_load_preview`: runs when the main-menu cursor lands on `newIdx`. */
  function PreviewNext(s: Session, newIdx: nat, kubectl: Request -> Launch): Session {
    if s.lastMainMenuIndex == Some(newIdx) then s
    else
      var cleared := s.(output := "");
      var previewed :=
        if newIdx == 2 then
          var e := cleared.ExecuteKubectl(PreviewPods(cleared.CurrentNamespace()), kubectl);
          if e.result.Err? then e.next.(output := "Error listing pods: " + e.result.error) else e.next
        else cleared;
      previewed.(lastMainMenuIndex := Some(newIdx))
  }

  /** `handle_load_namespaces`. */
  function LoadNamespacesNext(s: Session, kubectl: Request -> Launch): Session {
    var e := s.LoadNamespaces(kubectl);
    if e.result.Err? then e.next.(message := "Error loading namespaces: " + e.result.error, state := Message)
    else e.next.(state := NamespaceSelection)
  }

  /** `handle_load_contexts`. */
  function LoadContextsNext(s: Session, kubectl: Request -> Launch): Session {
    var e := s.LoadContexts(kubectl);
    if e.result.Err? then e.next.(message := "Error loading contexts: " + e.result.error, state := Message)
    else e.next.(state := ContextSelection)
  }

  /** Loading pods from the main menu, then showing them in the picker `picker`. */
  function LoadPodsNext(s: Session, picker: AppState, kubectl: Request -> Launch): Session {
    var e := s.LoadPods(kubectl);
    if e.result.Err? then e.next.(message := "Error loading pods: " + e.result.error, state := Message)
    else e.next.(state := picker)
  }

  /** `handle_main_menu`. */
  function MainMenuNext(s: Session, code: KeyCode, kubectl: Request -> Launch): Session {
    var oldIndex := s.listState.UnwrapOr(0);
    if IsUp(code) then
      var newIdx := CursorUp(oldIndex);
      PreviewNext(s.(listState := Some(newIdx)), newIdx, kubectl)
    else if IsDown(code) then
      var newIdx := CursorDown(oldIndex, |s.commands|);
      PreviewNext(s.(listState := Some(newIdx)), newIdx, kubectl)
    else if code == Right || code == Enter then
      if oldIndex == 0 then LoadContextsNext(s, kubectl)
      else if oldIndex == 1 then LoadNamespacesNext(s, kubectl)
      else if oldIndex == 2 then LoadPodsNext(s, ExecPodSelection, kubectl)
      else if oldIndex == 3 then LoadPodsNext(s, PodSelection, kubectl)
      else s
    else s
  }

  /** `handle_namespace_selection`. */
  function NamespaceSelectionNext(s: Session, code: KeyCode): Session {
    var selected := s.namespaceListState.UnwrapOr(0);
    if IsUp(code) then s.(namespaceListState := Some(CursorUp(selected)))
    else if IsDown(code) then s.(namespaceListState := Some(CursorDown(selected, |s.namespaces|)))
    else if code == Enter then
      if selected < |s.namespaces| then
        s.(selectedNamespace := Some(s.namespaces[selected]), state := MainMenu)
      else s
    else if code == Esc then s.(state := MainMenu)
    else s
  }

  /** `handle_context_selection`. */
  function ContextSelectionNext(s: Session, code: KeyCode, kubectl: Request -> Launch): Session {
    var selected := s.contextListState.UnwrapOr(0);
    if IsUp(code) then s.(contextListState := Some(CursorUp(selected)))
    else if IsDown(code) then s.(contextListState := Some(CursorDown(selected, |s.contexts|)))
    else if code == Enter then
      if selected < |s.contexts| then
        var e := s.SwitchContext(s.contexts[selected], kubectl);
        if e.result.Err? then e.next.(message := "Error switching context: " + e.result.error, state := Message)
        else e.next.(state := MainMenu)
      else s
    else if code == Esc then s.(state := MainMenu)
    else s
  }

  /** `handle_exec_pod_selection`. */
  function ExecPodSelectionNext(s: Session, code: KeyCode, kubectl: Request -> Launch): Session {
    var selected := s.podListState.UnwrapOr(0);
    if IsUp(code) then s.(podListState := Some(CursorUp(selected)))
    else if IsDown(code) then s.(podListState := Some(CursorDown(selected, |s.pods|)))
    else if code == Enter then
      if selected < |s.pods| then
        var e := s.ExecPod(s.pods[selected], kubectl);
        if e.result.Err? then e.next.(message := "Error exec into pod: " + e.result.error, state := Message)
        else e.next
      else s
    else if code == Esc then s.(state := MainMenu)
    else s
  }

  /** `handle_copy_pod_selection`. */
  function CopyPodSelectionNext(s: Session, code: KeyCode): Session {
    var selected := s.podListState.UnwrapOr(0);
    if IsUp(code) then s.(podListState := Some(CursorUp(selected)))
    else if IsDown(code) then s.(podListState := Some(CursorDown(selected, |s.pods|)))
    else if code == Enter then
      if selected < |s.pods| then
        s.(selectedPod := Some(s.pods[selected]), newPodName := "", state := CopyPodNameInput)
      else s
    else if code == Esc then s.(state := MainMenu)
    else s
  }

  /** `handle_copy_pod_name`. */
  function CopyPodNameNext(s: Session, code: KeyCode, kubectl: Request -> Launch): Session {
    if code == Enter then
      if s.newPodName == "" then
        s.(message := "Please enter a new pod name", state := Message)
      else if s.selectedPod.Some? then
        var e := s.CopyPod(s.selectedPod.value, s.newPodName, kubectl);
        var t := if e.result.Err? then e.next.(message := "Error copying pod: " + e.result.error, state := Message)
                 else e.next;
        t.(selectedPod := None, newPodName := "")
      else s
    else if code.Char? then s.(newPodName := s.newPodName + [code.c])
    else if code == Backspace then
      s.(newPodName := if s.newPodName == "" then "" else s.newPodName[..|s.newPodName| - 1])
    else if code == Esc then s.(state := PodSelection)
    else s
  }

  /** The per-screen dispatch of `run_app`, for a key other than 'q'. */
  function Dispatch(s: Session, code: KeyCode, kubectl: Request -> Launch): Session {
    match s.state
    case MainMenu => MainMenuNext(s, code, kubectl)
    case NamespaceSelection => NamespaceSelectionNext(s, code)
    case ContextSelection => ContextSelectionNext(s, code, kubectl)
    case ExecPodSelection => ExecPodSelectionNext(s, code, kubectl)
    case PodSelection => CopyPodSelectionNext(s, code)
    case CopyPodNameInput => CopyPodNameNext(s, code, kubectl)
    case Message => s.(state := MainMenu)
    case ShowOutput => s.(state := MainMenu)
  }

  /** One turn of `run_app`'s loop: 'q' ends it before any screen sees the key. */
  function Step(s: Session, event: Event, kubectl: Request -> Launch): Loop {
    match event
    case NonKey => Loop(s, false)
    case Key(code) =>
      if code == Char('q') then Loop(s, true) else Loop(Dispatch(s, code, kubectl), false)
  }

  /** `run_app` over a finite stretch of input. */
  function Run(s: Session, inputs: seq<Input>): Loop
    decreases |inputs|
  {
    if inputs == [] then Loop(s, false)
    else
      var l := Step(s, inputs[0].event, inputs[0].kubectl);
      if l.quit then l else Run(l.final, inputs[1..])
  }

  // ---------------------------------------------------------------------------
  // The handlers, on the session object

  method MaybeLoadPreview(app: App, newIdx: nat, kubectl: Request -> Launch)
    modifies app
    ensures app.Snapshot() == PreviewNext(old(app.Snapshot()), newIdx, kubectl)
  {
    if app.lastMainMenuIndex == Some(newIdx) {
      return;
    }
    app.output := "";
    if newIdx == 2 {
      var namespace := app.CurrentNamespace();
      var res := app.ExecuteKubectl(PreviewPods(namespace), kubectl);
      if res.Err? {
        app.output := "Error listing pods: " + res.error;
      }
    }
    app.lastMainMenuIndex := Some(newIdx);
  }

  method HandleLoadNamespaces(app: App, kubectl: Request -> Launch)
    modifies app
    ensures app.Snapshot() == LoadNamespacesNext(old(app.Snapshot()), kubectl)
  {
    var r := app.LoadNamespaces(kubectl);
    if r.Err? {
      app.ShowMessage("Error loading namespaces: " + r.error);
    } else {
      app.SetState(NamespaceSelection);
    }
  }

  method HandleLoadContexts(app: App, kubectl: Request -> Launch)
    modifies app
    ensures app.Snapshot() == LoadContextsNext(old(app.Snapshot()), kubectl)
  {
    var r := app.LoadContexts(kubectl);
    if r.Err? {
      app.ShowMessage("Error loading contexts: " + r.error);
    } else {
      app.SetState(ContextSelection);
    }
  }

  method HandleMainMenu(app: App, code: KeyCode, kubectl: Request -> Launch)
    modifies app
    ensures app.Snapshot() == MainMenuNext(old(app.Snapshot()), code, kubectl)
  {
    var oldIndex := app.listState.UnwrapOr(0);
    if IsUp(code) {
      var newIdx := CursorUp(oldIndex);
      app.SelectCommandRow(newIdx);
      MaybeLoadPreview(app, newIdx, kubectl);
    } else if IsDown(code) {
      var newIdx := CursorDown(oldIndex, |app.commands|);
      app.SelectCommandRow(newIdx);
      MaybeLoadPreview(app, newIdx, kubectl);
    } else if code == Right || code == Enter {
      if oldIndex == 0 {
        HandleLoadContexts(app, kubectl);
      } else if oldIndex == 1 {
        HandleLoadNamespaces(app, kubectl);
      } else if oldIndex == 2 {
        var r := app.LoadPods(kubectl);
        if r.Err? {
          app.ShowMessage("Error loading pods: " + r.error);
        } else {
          app.SetState(ExecPodSelection);
        }
      } else if oldIndex == 3 {
        var r := app.LoadPods(kubectl);
        match r {
          case Ok => app.SetState(PodSelection);
          case Err(e) =>
            app.ShowMessage("Error loading pods: " + e);
        }
      }
    }
  }

  method HandleNamespaceSelection(app: App, code: KeyCode)
    modifies app
    ensures app.Snapshot() == NamespaceSelectionNext(old(app.Snapshot()), code)
  {
    var selected := app.namespaceListState.UnwrapOr(0);
    if IsUp(code) {
      app.SelectNamespaceRow(CursorUp(selected));
    } else if IsDown(code) {
      app.SelectNamespaceRow(CursorDown(selected, |app.namespaces|));
    } else if code == Enter {
      if selected < |app.namespaces| {
        app.selectedNamespace := Some(app.namespaces[selected]);
        app.SetState(MainMenu);
      }
    } else if code == Esc {
      app.SetState(MainMenu);
    }
  }

  method HandleContextSelection(app: App, code: KeyCode, kubectl: Request -> Launch)
    modifies app
    ensures app.Snapshot() == ContextSelectionNext(old(app.Snapshot()), code, kubectl)
  {
    var selected := app.contextListState.UnwrapOr(0);
    if IsUp(code) {
      app.SelectContextRow(CursorUp(selected));
    } else if IsDown(code) {
      app.SelectContextRow(CursorDown(selected, |app.contexts|));
    } else if code == Enter {
      if selected < |app.contexts| {
        var r := app.SwitchContext(app.contexts[selected], kubectl);
        if r.Err? {
          app.ShowMessage("Error switching context: " + r.error);
        } else {
          app.SetState(MainMenu);
        }
      }
    } else if code == Esc {
      app.SetState(MainMenu);
    }
  }

  method HandleExecPodSelection(app: App, code: KeyCode, kubectl: Request -> Launch)
    modifies app
    ensures app.Snapshot() == ExecPodSelectionNext(old(app.Snapshot()), code, kubectl)
  {
    var selected := app.podListState.UnwrapOr(0);
    if IsUp(code) {
      app.SelectPodRow(CursorUp(selected));
    } else if IsDown(code) {
      app.SelectPodRow(CursorDown(selected, |app.pods|));
    } else if code == Enter {
      if selected < |app.pods| {
        var r := app.ExecPod(app.pods[selected], kubectl);
        if r.Err? {
          app.ShowMessage("Error exec into pod: " + r.error);
        }
      }
    } else if code == Esc {
      app.SetState(MainMenu);
    }
  }

  method HandleCopyPodSelection(app: App, code: KeyCode)
    modifies app
    ensures app.Snapshot() == CopyPodSelectionNext(old(app.Snapshot()), code)
  {
    var selected := app.podListState.UnwrapOr(0);
    if IsUp(code) {
      app.SelectPodRow(CursorUp(selected));
    } else if IsDown(code) {
      app.SelectPodRow(CursorDown(selected, |app.pods|));
    } else if code == Enter {
      if selected < |app.pods| {
        app.SetSelectedPod(Some(app.pods[selected]));
        app.SetNewPodName("");
        app.SetState(CopyPodNameInput);
      }
    } else if code == Esc {
      app.SetState(MainMenu);
    }
  }

  method HandleCopyPodName(app: App, code: KeyCode, kubectl: Request -> Launch)
    modifies app
    ensures app.Snapshot() == CopyPodNameNext(old(app.Snapshot()), code, kubectl)
  {
    match code {
      case Enter =>
        if app.newPodName == "" {
          app.ShowMessage("Please enter a new pod name");
        } else if app.selectedPod.Some? {
          var op := app.selectedPod.value;
          var newName := app.newPodName;
          var result := app.CopyPod(op, newName, kubectl);
          if result.Err? {
            app.ShowMessage("Error copying pod: " + result.error);
          }
          app.SetSelectedPod(None);
          app.SetNewPodName("");
        }
      case Char(c) =>
        app.SetNewPodName(app.newPodName + [c]);
      case Backspace =>
        if app.newPodName != "" {
          app.SetNewPodName(app.newPodName[..|app.newPodName| - 1]);
        }
      case Esc =>
        app.SetState(PodSelection);
      case _ =>
    }
  }

  /** One turn of `run_app`'s loop; `quit` is its `return Ok(())`. */
  method HandleEvent(app: App, event: Event, kubectl: Request -> Launch) returns (quit: bool)
    modifies app
    ensures Step(old(app.Snapshot()), event, kubectl) == Loop(app.Snapshot(), quit)
  {
    quit := false;
    if event.Key? {
      var code := event.code;
      if code == Char('q') {
        quit := true;
        return;
      }
      match app.state {
        case MainMenu => HandleMainMenu(app, code, kubectl);
        case NamespaceSelection => HandleNamespaceSelection(app, code);
        case ContextSelection => HandleContextSelection(app, code, kubectl);
        case ExecPodSelection => HandleExecPodSelection(app, code, kubectl);
        case PodSelection => HandleCopyPodSelection(app, code);
        case CopyPodNameInput => HandleCopyPodName(app, code, kubectl);
        case Message => app.SetState(MainMenu);
        case ShowOutput => app.SetState(MainMenu);
      }
    }
  }

  /** `run_app`: handles the inputs in order until one of them is 'q'. */
  method RunApp(app: App, inputs: seq<Input>) returns (quit: bool)
    modifies app
    ensures Run(old(app.Snapshot()), inputs) == Loop(app.Snapshot(), quit)
  {
    quit := false;
    var i := 0;
    while i < |inputs|
      invariant 0 <= i <= |inputs|
      invariant Run(old(app.Snapshot()), inputs) == Run(app.Snapshot(), inputs[i..])
    {
      assert inputs[i..][1..] == inputs[i + 1..];
      quit := HandleEvent(app, inputs[i].event, inputs[i].kubectl);
      if quit {
        return;
      }
      i := i + 1;
    }
  }
}

=== FILE: ui_properties.dfy ===
/** Properties of the key handling of src/ui.rs, stated on the `...Next` functions and on `Step` and `Run`. */
module UiProperties {
  import opened Wrappers
  import opened Text
  import opened Kubectl
  import opened Application
  import opened Ui
  import opened AppProperties

  // ---------------------------------------------------------------------------
  // List cursors

  /** The cursor after pressing Up `n` times. */
  function UpTimes(selected: nat, n: nat): nat
    decreases n
  {
    if n == 0 then selected else UpTimes(CursorUp(selected), n - 1)
  }

  /** The cursor after pressing Down `n` times on a list of `length` items. */
  function DownTimes(selected: nat, length: nat, n: nat): nat
    decreases n
  {
    if n == 0 then selected else DownTimes(CursorDown(selected, length), length, n - 1)
  }

  /** Up saturates at the first item: `n` presses move the cursor back `n` places, but never above 0. */
  lemma {:induction false} UpSaturates(selected: nat, n: nat)
    ensures UpTimes(selected, n) == if n <= selected then selected - n else 0
    decreases n
  {
    if n > 0 {
      UpSaturates(CursorUp(selected), n - 1);
    }
  }

  /** Down wraps from the last item to the first, and an empty list keeps the cursor at 0. */
  lemma DownWraps(length: nat)
    ensures length > 0 ==> CursorDown(length - 1, length) == 0
    ensures CursorDown(0, 0) == 0
    ensures forall i: nat :: i + 1 < length ==> CursorDown(i, length) == i + 1
  {
  }

  /** Presses add up: `a + b` presses of Down are `a` presses followed by `b` more. */
  lemma {:induction false} DownTimesAdd(selected: nat, length: nat, a: nat, b: nat)
    ensures DownTimes(selected, length, a + b) == DownTimes(DownTimes(selected, length, a), length, b)
    decreases a
  {
    if a > 0 {
      DownTimesAdd(CursorDown(selected, length), length, a - 1, b);
    }
  }

  /** Before the end of the list, each Down moves one item further. */
  lemma {:induction false} DownCountsUp(selected: nat, length: nat, n: nat)
    requires selected + n < length
    ensures DownTimes(selected, length, n) == selected + n
    decreases n
  {
    if n > 0 {
      DownCountsUp(selected + 1, length, n - 1);
    }
  }

  /** Pressing Down once per item brings the cursor back to where it started. */
  lemma {:induction false} DownCycles(selected: nat, length: nat)
    requires selected < length
    ensures DownTimes(selected, length, length) == selected
  {
    var toLast := length - 1 - selected;
    DownTimesAdd(selected, length, toLast, selected + 1);
    DownCountsUp(selected, length, toLast);
    DownTimesAdd(length - 1, length, 1, selected);
    assert DownTimes(length - 1, length, 1) == 0;
    DownCountsUp(0, length, selected);
  }

  // ---------------------------------------------------------------------------
  // The main-menu preview

  /** Landing again on the entry that was last previewed changes nothing, and runs no command. */
  lemma PreviewDebounced(s: Session, newIdx: nat, kubectl: Request -> Launch)
    requires s.lastMainMenuIndex == Some(newIdx)
    ensures PreviewNext(s, newIdx, kubectl) == s
  {
  }

  /**
   * Landing on a new entry records it, runs kubectl only for entry 2 (the pod
   * preview of the namespace in use), and otherwise only replaces the output.
   */
  lemma PreviewEffect(s: Session, newIdx: nat, kubectl: Request -> Launch)
    requires s.lastMainMenuIndex != Some(newIdx)
    ensures var t := PreviewNext(s, newIdx, kubectl);
            var request := PreviewPods(s.CurrentNamespace());
            && t.lastMainMenuIndex == Some(newIdx)
            && t == s.(output := t.output, lastMainMenuIndex := t.lastMainMenuIndex, calls := t.calls)
            && (newIdx != 2 ==> t.calls == s.calls && t.output == "")
            && (newIdx == 2 ==> t.calls == s.calls + [request])
            && (newIdx == 2 && Launched(kubectl(request)) ==> t.output == Captured(kubectl(request)))
            && (newIdx == 2 && !Launched(kubectl(request)) ==>
                  t.output == "Error listing pods: " + kubectl(request).error)
  {
  }

  /** Previewing the same entry twice in a row is the same as once: at most one kubectl call. */
  lemma PreviewIdempotent(s: Session, newIdx: nat, first: Request -> Launch, second: Request -> Launch)
    ensures var once := PreviewNext(s, newIdx, first);
            && PreviewNext(once, newIdx, second) == once
            && |once.calls| <= |s.calls| + 1
  {
  }

  // ---------------------------------------------------------------------------
  // The main menu

  /** Up and Down (or 'k' and 'j') only move the menu cursor and refresh the preview. */
  lemma MainMenuMoves(s: Session, code: KeyCode, kubectl: Request -> Launch)
    requires s.Valid()
    requires IsUp(code) || IsDown(code)
    ensures var t := MainMenuNext(s, code, kubectl);
            var i := s.listState.value;
            && t.listState == Some(if IsUp(code) then CursorUp(i) else CursorDown(i, 4))
            && t.lastMainMenuIndex == t.listState
            && t == s.(listState := t.listState, lastMainMenuIndex := t.lastMainMenuIndex,
                       output := t.output, calls := t.calls)
  {
    var i := s.listState.value;
    var n := if IsUp(code) then CursorUp(i) else CursorDown(i, |s.commands|);
    var moved := s.(listState := Some(n));
    assert MainMenuNext(s, code, kubectl) == PreviewNext(moved, n, kubectl);
    if moved.lastMainMenuIndex != Some(n) {
      PreviewEffect(moved, n, kubectl);
    }
  }

  /** Right and Enter do the same thing on the main menu. */
  lemma MainMenuRightIsEnter(s: Session, kubectl: Request -> Launch)
    ensures MainMenuNext(s, Right, kubectl) == MainMenuNext(s, Enter, kubectl)
  {
  }

  /** Keys other than Up, Down, 'k', 'j', Right and Enter are ignored on the main menu. */
  lemma MainMenuIgnoresOtherKeys(s: Session, code: KeyCode, kubectl: Request -> Launch)
    requires !IsUp(code) && !IsDown(code) && code != Right && code != Enter
    ensures MainMenuNext(s, code, kubectl) == s
  {
  }

  /**
   * Enter on entry `i` loads the list that entry needs and opens its picker
   * when kubectl succeeds, or the Message screen with the entry's error
   * prefix when it does not.
   */
  lemma MainMenuEnterDispatch(s: Session, kubectl: Request -> Launch)
    ensures var t := MainMenuNext(s, Enter, kubectl);
            var i := s.listState.UnwrapOr(0);
            var pods := kubectl(GetPods(s.CurrentNamespace()));
            && (i == 0 ==> t.state == (if Succeeded(kubectl(GetContexts)) then ContextSelection else Message))
            && (i == 0 && t.state == Message ==> t.message == "Error loading contexts: " + s.LoadContexts(kubectl).result.error)
            && (i == 1 ==> t.state == (if Succeeded(kubectl(GetNamespaces)) then NamespaceSelection else Message))
            && (i == 1 && t.state == Message ==> t.message == "Error loading namespaces: " + s.LoadNamespaces(kubectl).result.error)
            && (i == 2 ==> t.state == (if Succeeded(pods) then ExecPodSelection else Message))
            && (i == 3 ==> t.state == (if Succeeded(pods) then PodSelection else Message))
            && ((i == 2 || i == 3) && t.state == Message ==> t.message == "Error loading pods: " + s.LoadPods(kubectl).result.error)
            && (i < 4 && t.state == Message ==> t == s.(state := Message, message := t.message, calls := t.calls))
            && (i >= 4 ==> t == s)
  {
  }

  /** The loader Enter runs for each main-menu entry. */
  lemma MainMenuEnterLoads(s: Session, kubectl: Request -> Launch)
    ensures var t := MainMenuNext(s, Enter, kubectl);
            var i := s.listState.UnwrapOr(0);
            && (i == 0 ==> t == LoadContextsNext(s, kubectl))
            && (i == 1 ==> t == LoadNamespacesNext(s, kubectl))
            && (i == 2 ==> t == LoadPodsNext(s, ExecPodSelection, kubectl))
            && (i == 3 ==> t == LoadPodsNext(s, PodSelection, kubectl))
  {
    assert !IsUp(Enter) && !IsDown(Enter);
  }

  // ---------------------------------------------------------------------------
  // The pickers

  /** Esc leaves any picker for the main menu, keeping everything else. */
  lemma PickersEscToMainMenu(s: Session, kubectl: Request -> Launch)
    ensures NamespaceSelectionNext(s, Esc) == s.(state := MainMenu)
    ensures ContextSelectionNext(s, Esc, kubectl) == s.(state := MainMenu)
    ensures ExecPodSelectionNext(s, Esc, kubectl) == s.(state := MainMenu)
    ensures CopyPodSelectionNext(s, Esc) == s.(state := MainMenu)
  {
  }

  /** Only Enter picks: Right, which opens a screen from the main menu, does nothing in a picker. */
  lemma PickersIgnoreRight(s: Session, kubectl: Request -> Launch)
    ensures NamespaceSelectionNext(s, Right) == s
    ensures ContextSelectionNext(s, Right, kubectl) == s
    ensures ExecPodSelectionNext(s, Right, kubectl) == s
    ensures CopyPodSelectionNext(s, Right) == s
  {
  }

  /** Enter with the cursor on no item (an empty list) does nothing and runs no command. */
  lemma PickersEnterWithoutItem(s: Session, kubectl: Request -> Launch)
    ensures s.namespaceListState.UnwrapOr(0) >= |s.namespaces| ==> NamespaceSelectionNext(s, Enter) == s
    ensures s.contextListState.UnwrapOr(0) >= |s.contexts| ==> ContextSelectionNext(s, Enter, kubectl) == s
    ensures s.podListState.UnwrapOr(0) >= |s.pods| ==> ExecPodSelectionNext(s, Enter, kubectl) == s
    ensures s.podListState.UnwrapOr(0) >= |s.pods| ==> CopyPodSelectionNext(s, Enter) == s
  {
  }

  /** Choosing a namespace makes it the namespace in use and returns to the main menu. */
  lemma NamespaceChosen(s: Session)
    requires s.namespaceListState.UnwrapOr(0) < |s.namespaces|
    ensures var t := NamespaceSelectionNext(s, Enter);
            && t.state == MainMenu
            && t.CurrentNamespace() == s.namespaces[s.namespaceListState.UnwrapOr(0)]
            && t == s.(selectedNamespace := t.selectedNamespace, state := MainMenu)
  {
  }

  /** Choosing a context records it only when kubectl switched to it; otherwise the error is shown. */
  lemma ContextChosen(s: Session, kubectl: Request -> Launch)
    requires s.contextListState.UnwrapOr(0) < |s.contexts|
    ensures var context := s.contexts[s.contextListState.UnwrapOr(0)];
            var t := ContextSelectionNext(s, Enter, kubectl);
            && t.calls == s.calls + [UseContext(context)]
            && (Succeeded(kubectl(UseContext(context))) ==> t.state == MainMenu && t.selectedContext == Some(context))
            && (!Succeeded(kubectl(UseContext(context))) ==>
                  t.state == Message && t.selectedContext == s.selectedContext
                  && t.message == "Error switching context: "
                                  + (if Launched(kubectl(UseContext(context))) then "Failed to switch context"
                                     else kubectl(UseContext(context)).error))
            && t == s.(selectedContext := t.selectedContext, state := t.state, message := t.message, calls := t.calls)
  {
  }

  /** Choosing a pod to exec into shows kubectl's output, or the launch error. */
  lemma ExecPodChosen(s: Session, kubectl: Request -> Launch)
    requires s.podListState.UnwrapOr(0) < |s.pods|
    ensures var request := Exec(s.CurrentNamespace(), s.pods[s.podListState.UnwrapOr(0)]);
            var t := ExecPodSelectionNext(s, Enter, kubectl);
            && t.calls == s.calls + [request]
            && (Launched(kubectl(request)) ==> t.state == ShowOutput && t.output == Captured(kubectl(request)))
            && (!Launched(kubectl(request)) ==>
                  t.state == Message && t.message == "Error exec into pod: " + kubectl(request).error)
            && t == s.(state := t.state, message := t.message, output := t.output, calls := t.calls)
  {
  }

  /** Choosing a pod to copy opens the name prompt with an empty buffer; no command runs yet. */
  lemma CopyPodChosen(s: Session)
    requires s.podListState.UnwrapOr(0) < |s.pods|
    ensures var t := CopyPodSelectionNext(s, Enter);
            && t.state == CopyPodNameInput
            && t.selectedPod == Some(s.pods[s.podListState.UnwrapOr(0)])
            && t.newPodName == "" && t.calls == s.calls
            && t == s.(selectedPod := t.selectedPod, newPodName := "", state := CopyPodNameInput)
  {
  }

  // ---------------------------------------------------------------------------
  // The copy-name prompt

  /** Submitting an empty name shows a message and runs no command; the chosen pod is kept. */
  lemma EmptyNameRejected(s: Session, kubectl: Request -> Launch)
    requires s.newPodName == ""
    ensures var t := CopyPodNameNext(s, Enter, kubectl);
            && t.state == Message && t.message == "Please enter a new pod name"
            && t.calls == s.calls && t.selectedPod == s.selectedPod
            && t == s.(message := "Please enter a new pod name", state := Message)
  {
  }

  /**
   * Submitting a name copies the chosen pod under it in the namespace in use,
   * then forgets both the pod and the name, whether or not the copy started.
   */
  lemma NameSubmitted(s: Session, kubectl: Request -> Launch)
    requires s.newPodName != "" && s.selectedPod.Some?
    ensures var request := DebugCopy(s.CurrentNamespace(), s.selectedPod.value, s.newPodName);
            var t := CopyPodNameNext(s, Enter, kubectl);
            && t.calls == s.calls + [request]
            && t.selectedPod == None && t.newPodName == ""
            && (Launched(kubectl(request)) ==> t.state == ShowOutput && t.output == Captured(kubectl(request)))
            && (!Launched(kubectl(request)) ==>
                  t.state == Message && t.message == "Error copying pod: " + kubectl(request).error)
            && t == s.(selectedPod := None, newPodName := "", state := t.state, message := t.message,
                       output := t.output, calls := t.calls)
  {
  }

  /** A typed character is appended to the name, and nothing else changes. */
  lemma TypingAppends(s: Session, c: char, kubectl: Request -> Launch)
    ensures var t := CopyPodNameNext(s, Char(c), kubectl);
            && t.newPodName == s.newPodName + [c]
            && t == s.(newPodName := t.newPodName)
  {
  }

  /** In the loop, on the name prompt, every character but 'q' is typed into the name. */
  lemma TypingInLoop(s: Session, c: char, kubectl: Request -> Launch)
    requires s.state == CopyPodNameInput && c != 'q'
    ensures Step(s, Key(Char(c)), kubectl) == Loop(s.(newPodName := s.newPodName + [c]), false)
  {
    KeyDispatched(s, Char(c), kubectl);
    TypingAppends(s, c, kubectl);
  }

  /** The key presses that type `w`, one character per turn. */
  function Typed(w: string, kubectl: Request -> Launch): (inputs: seq<Input>)
    ensures |inputs| == |w|
  {
    if w == [] then [] else [Input(Key(Char(w[0])), kubectl)] + Typed(w[1..], kubectl)
  }

  /** Typing a word without 'q' at the name prompt appends exactly that word and stays on the prompt. */
  lemma {:induction false} TypingWord(s: Session, w: string, kubectl: Request -> Launch)
    requires s.state == CopyPodNameInput && 'q' !in w
    ensures Run(s, Typed(w, kubectl)) == Loop(s.(newPodName := s.newPodName + w), false)
    decreases |w|
  {
    if w == [] {
      assert s.newPodName + w == s.newPodName;
    } else {
      var inputs := Typed(w, kubectl);
      TypingInLoop(s, w[0], kubectl);
      var t := s.(newPodName := s.newPodName + [w[0]]);
      assert inputs[1..] == Typed(w[1..], kubectl);
      assert Run(s, inputs) == Run(t, Typed(w[1..], kubectl));
      TypingWord(t, w[1..], kubectl);
      assert t.newPodName + w[1..] == s.newPodName + w;
    }
  }

  /** Backspace undoes a typed character. */
  lemma BackspaceUndoesTyping(s: Session, c: char, kubectl: Request -> Launch)
    ensures CopyPodNameNext(CopyPodNameNext(s, Char(c), kubectl), Backspace, kubectl) == s
  {
    assert (s.newPodName + [c])[..|s.newPodName|] == s.newPodName;
  }

  /** Backspace on an empty buffer does nothing; otherwise it drops the last character only. */
  lemma BackspaceShortens(s: Session, kubectl: Request -> Launch)
    ensures var t := CopyPodNameNext(s, Backspace, kubectl);
            && (s.newPodName == "" ==> t == s)
            && (s.newPodName != "" ==>
                  t.newPodName + [s.newPodName[|s.newPodName| - 1]] == s.newPodName
                  && t == s.(newPodName := t.newPodName))
  {
  }

  /** Esc goes back to the pod list, keeping the chosen pod and the typed name. */
  lemma NamePromptEsc(s: Session, kubectl: Request -> Launch)
    ensures CopyPodNameNext(s, Esc, kubectl) == s.(state := PodSelection)
  {
  }

  // ---------------------------------------------------------------------------
  // The event loop

  /** 'q' ends the loop on every screen and changes nothing, so no screen ever sees it. */
  lemma QuitAnywhere(s: Session, kubectl: Request -> Launch)
    ensures Step(s, Key(Char('q')), kubectl) == Loop(s, true)
  {
  }

  /** Every key other than 'q' goes to the handler of the screen on display, and the loop goes on. */
  lemma KeyDispatched(s: Session, code: KeyCode, kubectl: Request -> Launch)
    requires code != Char('q')
    ensures Step(s, Key(code), kubectl) == Loop(Dispatch(s, code, kubectl), false)
  {
  }

  /** Events other than key presses change nothing and do not end the loop. */
  lemma NonKeyIgnored(s: Session, kubectl: Request -> Launch)
    ensures Step(s, NonKey, kubectl) == Loop(s, false)
  {
  }

  /** On the Message and ShowOutput screens any key but 'q' returns to the main menu. */
  lemma AnyKeyDismisses(s: Session, code: KeyCode, kubectl: Request -> Launch)
    requires s.state == Message || s.state == ShowOutput
    requires code != Char('q')
    ensures Step(s, Key(code), kubectl) == Loop(s.(state := MainMenu), false)
  {
  }

  /** A typed pod name can never contain 'q': the loop takes 'q' before the prompt sees it. */
  lemma NameNeverHasQ(s: Session, event: Event, kubectl: Request -> Launch)
    requires 'q' !in s.newPodName
    ensures 'q' !in Step(s, event, kubectl).final.newPodName
  {
    if event.Key? && event.code != Char('q') {
      var code := event.code;
      var t := Dispatch(s, code, kubectl);
      KeyDispatched(s, code, kubectl);
      if s.state == CopyPodNameInput {
        if code.Char? {
          TypingAppends(s, code.c, kubectl);
          assert t.newPodName == s.newPodName + [code.c];
        } else if code == Backspace && s.newPodName != "" {
          BackspaceShortens(s, kubectl);
          assert t.newPodName == s.newPodName[..|s.newPodName| - 1];
          assert forall x :: x in t.newPodName ==> x in s.newPodName;
        }
      }
    }
  }

  /** Over any run of input that does not quit, the loop is one step after another. */
  lemma {:induction false} RunSplits(s: Session, inputs: seq<Input>, more: seq<Input>)
    ensures var l := Run(s, inputs);
            Run(s, inputs + more) == if l.quit then l else Run(l.final, more)
    decreases |inputs|
  {
    if inputs == [] {
      assert inputs + more == more;
    } else {
      assert (inputs + more)[0] == inputs[0];
      assert (inputs + more)[1..] == inputs[1..] + more;
      var l := Step(s, inputs[0].event, inputs[0].kubectl);
      if !l.quit {
        RunSplits(l.final, inputs[1..], more);
      }
    }
  }

  // ---------------------------------------------------------------------------
  // The session invariant

  /** Moving a list cursor up or down keeps it on an item of the list, or at 0. */
  lemma CursorMovesFit(cursor: Option<nat>, length: nat)
    requires CursorFits(cursor, length)
    ensures CursorFits(Some(CursorUp(cursor.UnwrapOr(0))), length)
    ensures CursorFits(Some(CursorDown(cursor.UnwrapOr(0), length)), length)
  {
  }

  /** Changing only the screen keeps the invariant, unless the screen is the name prompt. */
  lemma ScreenChangeKeepsValid(s: Session, screen: AppState)
    requires s.Valid() && screen != CopyPodNameInput
    ensures s.(state := screen).Valid()
  {
  }

  /** Moving the context cursor to a place that fits keeps the invariant. */
  lemma ContextCursorKeepsValid(s: Session, cursor: Option<nat>)
    requires s.Valid() && CursorFits(cursor, |s.contexts|)
    ensures s.(contextListState := cursor).Valid()
  {
  }

  /** Moving the pod cursor to a place that fits keeps the invariant. */
  lemma PodCursorKeepsValid(s: Session, cursor: Option<nat>)
    requires s.Valid() && CursorFits(cursor, |s.pods|)
    ensures s.(podListState := cursor).Valid()
  {
  }

  lemma PreviewKeepsValid(s: Session, newIdx: nat, kubectl: Request -> Launch)
    requires s.Valid() && newIdx < |s.commands|
    ensures PreviewNext(s, newIdx, kubectl).Valid()
  {
    if s.lastMainMenuIndex != Some(newIdx) {
      PreviewEffect(s, newIdx, kubectl);
    }
  }

  lemma LoadNamespacesKeepsValid(s: Session, kubectl: Request -> Launch)
    requires s.Valid()
    ensures LoadNamespacesNext(s, kubectl).Valid()
  {
    var reply := kubectl(GetNamespaces);
    var calls := s.calls + [GetNamespaces];
    var t := LoadNamespacesNext(s, kubectl);
    if Succeeded(reply) {
      assert t == s.(namespaces := ParseNames(reply.stdout), namespaceListState := Some(0), calls := calls,
                     state := NamespaceSelection);
    } else {
      assert t == s.(calls := calls, message := t.message, state := Message);
    }
  }

  lemma LoadContextsKeepsValid(s: Session, kubectl: Request -> Launch)
    requires s.Valid()
    ensures LoadContextsNext(s, kubectl).Valid()
  {
    var reply := kubectl(GetContexts);
    var calls := s.calls + [GetContexts];
    var t := LoadContextsNext(s, kubectl);
    if Succeeded(reply) {
      assert t == s.(contexts := Lines(reply.stdout), contextListState := Some(0), calls := calls,
                     state := ContextSelection);
    } else {
      assert t == s.(calls := calls, message := t.message, state := Message);
    }
  }

  lemma LoadPodsKeepsValid(s: Session, picker: AppState, kubectl: Request -> Launch)
    requires s.Valid() && picker != CopyPodNameInput
    ensures LoadPodsNext(s, picker, kubectl).Valid()
  {
    var request := GetPods(s.CurrentNamespace());
    var reply := kubectl(request);
    var calls := s.calls + [request];
    var t := LoadPodsNext(s, picker, kubectl);
    if Succeeded(reply) {
      assert t == s.(pods := ParseNames(reply.stdout), podListState := Some(0), calls := calls, state := picker);
    } else {
      assert t == s.(calls := calls, message := t.message, state := Message);
    }
  }

  lemma MainMenuKeepsValid(s: Session, code: KeyCode, kubectl: Request -> Launch)
    requires s.Valid()
    ensures MainMenuNext(s, code, kubectl).Valid()
  {
    if IsUp(code) || IsDown(code) {
      MainMenuMoveKeepsValid(s, code, kubectl);
    } else if code == Right || code == Enter {
      MainMenuEnterKeepsValid(s, code, kubectl);
    } else {
      assert MainMenuNext(s, code, kubectl) == s;
    }
  }

  lemma MainMenuMoveKeepsValid(s: Session, code: KeyCode, kubectl: Request -> Launch)
    requires s.Valid() && (IsUp(code) || IsDown(code))
    ensures MainMenuNext(s, code, kubectl).Valid()
  {
    var i := s.listState.value;
    var newIdx := if IsUp(code) then CursorUp(i) else CursorDown(i, |s.commands|);
    var moved := s.(listState := Some(newIdx));
    assert MainMenuNext(s, code, kubectl) == PreviewNext(moved, newIdx, kubectl);
    assert moved.Valid();
    PreviewKeepsValid(moved, newIdx, kubectl);
  }

  lemma MainMenuEnterKeepsValid(s: Session, code: KeyCode, kubectl: Request -> Launch)
    requires s.Valid() && (code == Right || code == Enter)
    ensures MainMenuNext(s, code, kubectl).Valid()
  {
    var i := s.listState.value;
    assert !IsUp(code) && !IsDown(code);
    if i == 0 {
      assert MainMenuNext(s, code, kubectl) == LoadContextsNext(s, kubectl);
      LoadContextsKeepsValid(s, kubectl);
    } else if i == 1 {
      assert MainMenuNext(s, code, kubectl) == LoadNamespacesNext(s, kubectl);
      LoadNamespacesKeepsValid(s, kubectl);
    } else if i == 2 {
      assert MainMenuNext(s, code, kubectl) == LoadPodsNext(s, ExecPodSelection, kubectl);
      LoadPodsKeepsValid(s, ExecPodSelection, kubectl);
    } else {
      assert MainMenuNext(s, code, kubectl) == LoadPodsNext(s, PodSelection, kubectl);
      LoadPodsKeepsValid(s, PodSelection, kubectl);
    }
  }

  lemma NamespacePickerKeepsValid(s: Session, code: KeyCode)
    requires s.Valid()
    ensures NamespaceSelectionNext(s, code).Valid()
  {
    var selected := s.namespaceListState.UnwrapOr(0);
    CursorMovesFit(s.namespaceListState, |s.namespaces|);
    if IsUp(code) || IsDown(code) {
    } else if code == Enter && selected < |s.namespaces| {
      assert IsName(s.namespaces[selected]);
    } else {
      assert NamespaceSelectionNext(s, code) == s || NamespaceSelectionNext(s, code) == s.(state := MainMenu);
    }
  }

  lemma ContextPickerKeepsValid(s: Session, code: KeyCode, kubectl: Request -> Launch)
    requires s.Valid()
    ensures ContextSelectionNext(s, code, kubectl).Valid()
  {
    var selected := s.contextListState.UnwrapOr(0);
    var t := ContextSelectionNext(s, code, kubectl);
    CursorMovesFit(s.contextListState, |s.contexts|);
    if IsUp(code) {
      assert t == s.(contextListState := Some(CursorUp(selected)));
      ContextCursorKeepsValid(s, Some(CursorUp(selected)));
    } else if IsDown(code) {
      assert t == s.(contextListState := Some(CursorDown(selected, |s.contexts|)));
      ContextCursorKeepsValid(s, Some(CursorDown(selected, |s.contexts|)));
    } else if code == Enter {
      if selected < |s.contexts| {
        ContextChosenKeepsValid(s, kubectl);
      } else {
        assert t == s;
      }
    } else if code == Esc {
      assert t == s.(state := MainMenu);
      ScreenChangeKeepsValid(s, MainMenu);
    } else {
      assert t == s;
    }
  }

  lemma ContextChosenKeepsValid(s: Session, kubectl: Request -> Launch)
    requires s.Valid() && s.contextListState.UnwrapOr(0) < |s.contexts|
    ensures ContextSelectionNext(s, Enter, kubectl).Valid()
  {
    var context := s.contexts[s.contextListState.UnwrapOr(0)];
    var calls := s.calls + [UseContext(context)];
    var t := ContextSelectionNext(s, Enter, kubectl);
    SwitchContextEffect(s, context, kubectl);
    if Succeeded(kubectl(UseContext(context))) {
      assert t == s.(selectedContext := Some(context), calls := calls, state := MainMenu);
    } else {
      assert t == s.(calls := calls, message := t.message, state := Message);
    }
  }

  lemma ExecPickerKeepsValid(s: Session, code: KeyCode, kubectl: Request -> Launch)
    requires s.Valid()
    ensures ExecPodSelectionNext(s, code, kubectl).Valid()
  {
    var selected := s.podListState.UnwrapOr(0);
    var t := ExecPodSelectionNext(s, code, kubectl);
    CursorMovesFit(s.podListState, |s.pods|);
    if IsUp(code) {
      assert t == s.(podListState := Some(CursorUp(selected)));
      PodCursorKeepsValid(s, Some(CursorUp(selected)));
    } else if IsDown(code) {
      assert t == s.(podListState := Some(CursorDown(selected, |s.pods|)));
      PodCursorKeepsValid(s, Some(CursorDown(selected, |s.pods|)));
    } else if code == Enter {
      if selected < |s.pods| {
        ExecPodChosenKeepsValid(s, kubectl);
      } else {
        assert t == s;
      }
    } else if code == Esc {
      assert t == s.(state := MainMenu);
      ScreenChangeKeepsValid(s, MainMenu);
    } else {
      assert t == s;
    }
  }

  lemma ExecPodChosenKeepsValid(s: Session, kubectl: Request -> Launch)
    requires s.Valid() && s.podListState.UnwrapOr(0) < |s.pods|
    ensures ExecPodSelectionNext(s, Enter, kubectl).Valid()
  {
    var request := Exec(s.CurrentNamespace(), s.pods[s.podListState.UnwrapOr(0)]);
    var calls := s.calls + [request];
    var t := ExecPodSelectionNext(s, Enter, kubectl);
    if Launched(kubectl(request)) {
      assert t == s.(output := Captured(kubectl(request)), state := ShowOutput, calls := calls);
    } else {
      assert t == s.(calls := calls, message := t.message, state := Message);
    }
  }

  lemma CopyPickerKeepsValid(s: Session, code: KeyCode)
    requires s.Valid()
    ensures CopyPodSelectionNext(s, code).Valid()
  {
    var selected := s.podListState.UnwrapOr(0);
    CursorMovesFit(s.podListState, |s.pods|);
    if IsUp(code) || IsDown(code) {
    } else if code == Enter && selected < |s.pods| {
      assert IsName(s.pods[selected]);
    } else {
      assert CopyPodSelectionNext(s, code) == s || CopyPodSelectionNext(s, code) == s.(state := MainMenu);
    }
  }

  lemma CopyPodNameKeepsValid(s: Session, code: KeyCode, kubectl: Request -> Launch)
    requires s.Valid()
    ensures CopyPodNameNext(s, code, kubectl).Valid()
  {
    if code == Enter && s.newPodName != "" && s.selectedPod.Some? {
      NameSubmittedKeepsValid(s, kubectl);
    }
  }

  lemma NameSubmittedKeepsValid(s: Session, kubectl: Request -> Launch)
    requires s.Valid() && s.newPodName != "" && s.selectedPod.Some?
    ensures CopyPodNameNext(s, Enter, kubectl).Valid()
  {
    var request := DebugCopy(s.CurrentNamespace(), s.selectedPod.value, s.newPodName);
    var calls := s.calls + [request];
    var t := CopyPodNameNext(s, Enter, kubectl);
    if Launched(kubectl(request)) {
      assert t == s.(output := Captured(kubectl(request)), state := ShowOutput, calls := calls,
                     selectedPod := None, newPodName := "");
    } else {
      assert t == s.(calls := calls, message := t.message, state := Message, selectedPod := None, newPodName := "");
    }
  }

  /** Every turn of the loop keeps the session invariant. */
  lemma StepKeepsValid(s: Session, event: Event, kubectl: Request -> Launch)
    requires s.Valid()
    ensures Step(s, event, kubectl).final.Valid()
  {
    if event.Key? && event.code != Char('q') {
      var code := event.code;
      match s.state
      case MainMenu => MainMenuKeepsValid(s, code, kubectl);
      case NamespaceSelection => NamespacePickerKeepsValid(s, code);
      case ContextSelection => ContextPickerKeepsValid(s, code, kubectl);
      case ExecPodSelection => ExecPickerKeepsValid(s, code, kubectl);
      case PodSelection => CopyPickerKeepsValid(s, code);
      case CopyPodNameInput => CopyPodNameKeepsValid(s, code, kubectl);
      case Message =>
      case ShowOutput =>
    }
  }

  /** Every session the loop reaches from a valid one is valid. */
  lemma {:induction false} RunKeepsValid(s: Session, inputs: seq<Input>)
    requires s.Valid()
    ensures Run(s, inputs).final.Valid()
    decreases |inputs|
  {
    if inputs != [] {
      StepKeepsValid(s, inputs[0].event, inputs[0].kubectl);
      var l := Step(s, inputs[0].event, inputs[0].kubectl);
      if !l.quit {
        RunKeepsValid(l.final, inputs[1..]);
      }
    }
  }

  /** Every session reached from start-up is valid, and works in a namespace with a proper name. */
  lemma ReachableSessionsValid(kubectl: Request -> Launch, inputs: seq<Input>)
    ensures Run(Session.New(kubectl), inputs).final.Valid()
    ensures IsName(Run(Session.New(kubectl), inputs).final.CurrentNamespace())
  {
    NewSessionIsValid(kubectl);
    RunKeepsValid(Session.New(kubectl), inputs);
    CurrentNamespaceFallback(Run(Session.New(kubectl), inputs).final);
  }

  // ---------------------------------------------------------------------------
  // Walk-throughs

  /**
   * From the main menu on "Choose Namespace", Enter with kubectl listing
   * names in jsonpath form opens the namespace picker on exactly those names,
   * with the cursor on the first.
   */
  lemma ListNamespacesWalkthrough(s: Session, kubectl: Request -> Launch, names: seq<string>)
    requires s.state == MainMenu && s.listState == Some(1)
    requires AllNames(names) && forall i :: 0 <= i < |names| ==> '\'' !in names[i]
    requires kubectl(GetNamespaces) == Exited(true, "'" + JoinWith(names, ' ') + "'", "")
    ensures var listed := Step(s, Key(Enter), kubectl).final;
            && listed.state == NamespaceSelection
            && listed.namespaces == names
            && listed.namespaceListState == Some(0)
  {
    ParseNamesOfListing(names);
    EnterOnNamespacesEntry(s, kubectl);
  }

  /** Enter on "Choose Namespace" with a successful listing opens the picker on the parsed names. */
  lemma EnterOnNamespacesEntry(s: Session, kubectl: Request -> Launch)
    requires s.state == MainMenu && s.listState == Some(1)
    requires Succeeded(kubectl(GetNamespaces))
    ensures var listed := Step(s, Key(Enter), kubectl).final;
            && listed.state == NamespaceSelection
            && listed.namespaces == ParseNames(kubectl(GetNamespaces).stdout)
            && listed.namespaceListState == Some(0)
  {
    LoadNamespacesEffect(s, kubectl);
    MainMenuEnterLoads(s, kubectl);
    KeyDispatched(s, Enter, kubectl);
  }

  /** In the namespace picker on those two names, Down then Enter makes kube-system the namespace in use. */
  lemma ChooseNamespaceWalkthrough(s: Session, kubectl: Request -> Launch)
    requires s.state == NamespaceSelection && s.namespaces == ["default", "kube-system"]
    requires s.namespaceListState == Some(0)
    ensures var moved := Step(s, Key(Down), kubectl).final;
            var chosen := Step(moved, Key(Enter), kubectl).final;
            && chosen.state == MainMenu
            && chosen.CurrentNamespace() == "kube-system"
  {
  }

  /**
   * Copying worker-1: Enter on it in the pod picker, type "w2", Enter; once
   * kubectl starts, the output is shown and the pod and name are forgotten.
   */
  lemma CopyPodWalkthrough(s: Session, kubectl: Request -> Launch)
    requires s.state == PodSelection && s.pods == ["worker-1"] && s.podListState == Some(0)
    requires Launched(kubectl(DebugCopy(s.CurrentNamespace(), "worker-1", "w2")))
    ensures var picked := Step(s, Key(Enter), kubectl).final;
            var typed := Step(Step(picked, Key(Char('w')), kubectl).final, Key(Char('2')), kubectl).final;
            var done := Step(typed, Key(Enter), kubectl).final;
            && typed.newPodName == "w2" && typed.selectedPod == Some("worker-1")
            && done.state == ShowOutput && done.selectedPod == None && done.newPodName == ""
            && done.calls == s.calls + [DebugCopy(s.CurrentNamespace(), "worker-1", "w2")]
  {
  }
}

=== FILE: wrappers.dfy ===
/** Rust's `Option`, as used throughout the model. */
module Wrappers {

  datatype Option<+T> = None | Some(value: T) {

    /** `Option::unwrap_or`: the value, or `default` when there is none. */
    function UnwrapOr(default: T): T {
      match this
      case Some(v) => v
      case None => default
    }
  }
}
